=== FILE: README.md ===
# Foodgram relation store — a Dafny model

Foodgram is a recipe-sharing backend built on Django and Django REST
Framework. Users publish recipes, each made of ingredient lines (ingredient,
amount) and tags. Users keep favorites and a shopping cart of recipes, and
they subscribe to authors. The cart can be downloaded as a plain-text
shopping list that sums the amounts of equal ingredients.

This project models the relational core of that backend as one immutable
store value, plus the pure operations over it:

- `seqs.dfy` (`Common`) holds Option/Result and an order-preserving row filter (a WHERE clause), with its algebra.
- `store.dfy` (`Store`) holds the schema of `recipes/models.py` and `users/models.py`:
  - entity tables keyed by a serial id;
  - relation tables as sequences of rows;
  - the `Valid` invariant for uniqueness and foreign keys;
  - the ON DELETE CASCADE deletes, which keep it.
- `mutators.dfy` (`Mutators`) holds the add/remove state machine for favorites and the cart. `UsersViewSet._add_or_remove_item` and `recipe_add_or_del_method` in `api/utils.py` are the same code, modelled once. The module also holds subscribe/unsubscribe.
- `membership.dfy` (`Membership`) holds `check_subscribed` and `is_favorited` / `is_in_shopping_cart`.
- `filters.dfy` (`RecipeFilters`) holds the recipe list filters. The method filters are modelled both as written and as intended (see Findings).
- `recipe_writes.dfy` (`RecipeWrites`) holds recipe create/update. Ingredient lines and tags are replaced wholesale when given and kept when omitted.
- `shopping_list.dfy` (`ShoppingList`) holds the cart aggregation and its text report:
  - GROUP BY (ingredient name, unit), with SQL SUM semantics;
  - the header and line format;
  - the download loop.
- `validators.dfy` (`Validators`) holds the username validator, the tag colour pattern and the admin formset check.
- `ordering.dfy` (`Ordering`) holds the default orderings of the models. Sorting is a verified insertion sort: it returns a sorted permutation.

Deployment settings (reserved usernames, and what the forbidden-character
pattern matches in a name) and the clock (`pub_date`) are parameters. HTTP, permissions and
serialization are not modelled. Each operation returns the new store and a
result tag, and the tag's HTTP status is given where the view fixes one.

## Model

| member | source | states |
|---|---|---|
| Store.InsertUser | backend/users/models.py:8-22 | a user is stored iff no existing user has its username or email; a refusal is UsernameTaken exactly when the username clashes and EmailTaken exactly when only the email does; a stored user gets a fresh id, every existing user keeps its row, no other table changes, and `Valid` is kept |
| Store.InsertTag | backend/recipes/models.py:29-49 | a tag is stored iff its name, colour and slug are all unused; a refusal names the first clashing column in the order name, colour, slug, and each error holds exactly when that column clashes and no earlier one does; the new row gets a fresh id, every existing tag keeps its row, no other table changes, and `Valid` is kept |
| Store.DeleteRecipe | backend/recipes/models.py:107-180 | deleting a recipe removes exactly that row and its ingredient lines, favorites and cart rows; the other recipes keep their rows; users, ingredients, tags and subscriptions are unchanged; `Valid` is kept |
| Store.DeleteUser | backend/users/models.py:41-53 | deleting a user removes their row and their recipes (with those recipes' lines, favorites and cart rows), their own favorites and cart rows, and every subscription where they are subscriber or author; the remaining users and recipes keep their rows; ingredients and tags are unchanged; `Valid` is kept |
| Store.DeleteIngredient | backend/recipes/models.py:113-118 | deleting an ingredient removes exactly that row and the lines that use it; the remaining ingredients keep their rows; `Valid` is kept |
| Store.DeleteTag | backend/recipes/models.py:86-89 | deleting a tag removes that row and removes it from every recipe's tag set; the remaining tags keep their rows and nothing else changes; `Valid` is kept |
| Mutators.AddOrRemoveItem | backend/api/views.py:79-96 | unknown recipe → not found, store unchanged; POST adds the pair iff absent (201 with the short recipe) and otherwise changes nothing (400); DELETE removes exactly that pair iff present (204) and otherwise changes nothing (404); 404 exactly for an unknown recipe or a missing pair; the status is 201 or 204 exactly when the store changed; the other list is untouched; `Valid` is kept |
| Mutators.AddTwiceKeepsOneRow | backend/recipes/models.py:165-168 | a second add reports "already present", changes nothing, and exactly one row for the pair exists |
| Mutators.AddThenRemoveLeavesNoRow | backend/api/views.py:93-96 | add then remove leaves no row for the pair, and a further remove reports not found |
| Mutators.Subscribe | backend/api/views.py:59-76 | unknown author → 404 first; following oneself → 400 with the store unchanged; a new subscription adds exactly that row; an existing one reaches the unique constraint (500); unsubscribe deletes exactly that row, or 404 when absent; the status is 201 or 204 exactly when the store changed; `Valid` is kept |
| Mutators.SelfSubscriptionNeverStored | backend/api/views.py:65-67 | a self-subscription request is refused whatever the store holds, and no self row appears |
| Mutators.StoreAllowsSelfFollow | backend/users/models.py:41-65 | the schema alone accepts a (user, user) subscription row: only the view refuses it |
| Membership.CheckSubscribed | backend/api/utils.py:30-34 | false without a request or for an anonymous caller; for a user, true iff a (user, author) subscription exists |
| Membership.FavoritedOrInCart | backend/api/serializers.py:70-80 | a missing request raises; an anonymous caller gets null, never true; a user gets true iff their row for the recipe exists |
| Membership.FlagFollowsMutation | backend/api/serializers.py:70-74 | after a successful add the flag reads true, after a remove it reads false |
| Membership.OtherListFlagUnchanged | backend/api/serializers.py:76-80 | changing favorites never changes `is_in_shopping_cart`, and the other way round |
| Membership.SubscribedFlagFollowsMutation | backend/api/utils.py:31-33 | after a subscribe request (a new subscription, or one that hits the unique constraint) `is_subscribed` is true for the subscriber; after an unsubscribe request it is false |
| RecipeFilters.ListFilter | backend/api/filters.py:31-43 | intended method filter: anonymous → empty; True keeps exactly the listed recipes; False keeps exactly the unlisted ones; no value passes the queryset through; the result is a subsequence of the input |
| RecipeFilters.TrueFalsePartition | backend/api/filters.py:39-42 | for a user, the True and False results together are exactly the input queryset (multiset equality) |
| RecipeFilters.ApplyListFilter | backend/api/filters.py:21-29 | an absent filter value skips the method, so even an anonymous caller gets the queryset unchanged; a present value runs the (intended) method filter |
| RecipeFilters.ListFilterAsWritten | backend/api/filters.py:45-57 | as written: anonymous → empty; for a user, an unknown accessor raises, and a known one behaves as the intended filter |
| RecipeFilters.MethodFiltersFailForMembers | backend/api/filters.py:36-50 | as written, both method filters raise AttributeError for every authenticated caller, whatever the store, queryset and value |
| RecipeFilters.DefaultAccessorsGiveIntended | backend/recipes/models.py:172-180 | with the accessors the models provide, the code path gives the intended filter |
| RecipeFilters.AuthorFilter | backend/api/filters.py:14 | keeps exactly the recipes of the given author id, in order; no value means no filtering |
| RecipeFilters.TagsFilter | backend/api/filters.py:15-19 | refused iff some slug names no tag, and the error names one such slug; otherwise keeps exactly the recipes carrying a tag with one of the slugs, in order; no slugs means no filtering |
| RecipeFilters.FilterRecipes | backend/api/filters.py:13-61 | the composed filter set, with the corrected list filters (see Findings): an error iff some slug is unknown; otherwise a recipe of the input is kept exactly when it meets the author, tag, favorite and cart conditions given (True: listed, False: not listed, for a signed-in caller); the result is a subsequence of the input, so it keeps the queryset order and has no repeats when the queryset has none; an anonymous caller asking for a list filter gets nothing |
| RecipeWrites.SaveIngredients | backend/api/serializers.py:109-117 | the bulk insert succeeds iff every item names an existing ingredient, its amount fits the column, and no ingredient repeats; it then writes one line per item, in item order |
| RecipeWrites.RepeatedIngredientRefused | backend/recipes/models.py:128-131 | a request repeating an ingredient id is not deduplicated and fails at the (recipe, ingredient) constraint |
| RecipeWrites.ReplaceLinesEffect | backend/api/serializers.py:128-131 | after replacement the recipe's lines are exactly the new rows, and every other recipe's lines are as before |
| RecipeWrites.ReplaceLinesValid | backend/recipes/models.py:107-131 | replacing a recipe's lines with insertable rows keeps every constraint |
| RecipeWrites.CreateRecipe | backend/api/serializers.py:119-125 | refused iff a field is invalid (blank name or text, cooking time out of range, no or unknown tags; the columns allow no blank name or text) or the bulk insert fails; an invalid field is reported as 400 with exactly the invalid fields, and otherwise a refusal is the database error; on success a fresh recipe by the author with the given name, text, cooking time and publication time, exactly the given tags and exactly the given lines in order; other recipes keep their rows and lines; users, ingredients, tags and the lists are untouched; `Valid` is kept |
| RecipeWrites.UpdatedRecipeRow | backend/api/views.py:124-125 | after an update the recipe's author is the editor and its publication time is kept; given fields and tags replace the old ones, omitted ones stay |
| RecipeWrites.PatchRow | backend/api/serializers.py:132-136 | the update touches only the edited recipe's row and keeps `Valid` |
| RecipeWrites.UpdateRecipe | backend/api/serializers.py:127-136 | unknown recipe → not found; refused iff a given field is invalid (blank name or text, cooking time out of range, no or unknown tags) or the bulk insert fails, an invalid field reported with exactly the invalid fields and otherwise as the database error; given ingredients become exactly the recipe's lines; omitted ingredients leave every line unchanged; other recipes' lines are unchanged |
| RecipeWrites.UpdateReplacesNotMerges | backend/api/serializers.py:128-131 | after an update with ingredients, every line of the recipe comes from the new list: old lines do not survive |
| RecipeWrites.UpdateIdempotent | backend/api/serializers.py:127-136 | sending the same update again to the store the first one produced succeeds and changes nothing, since lines and tags are replaced, not merged |
| ShoppingList.SqlSum | backend/api/views.py:149 | SUM is NULL iff every amount is NULL, and otherwise the sum of the non-NULL amounts |
| ShoppingList.Aggregate | backend/api/views.py:145-149 | GROUP BY (name, unit): one group per distinct key of the items, no key twice, and each key's total is the SUM of exactly that key's amounts |
| ShoppingList.ShoppingListContents | backend/api/views.py:145-151 | the shopping list has one group per distinct (name, unit) among the lines of the recipes in the user's cart, each totalled over exactly those lines |
| ShoppingList.EmptyCartNoGroups | backend/api/views.py:145-147 | a user with an empty cart gets no group |
| ShoppingList.DecimalRoundTrip | backend/api/views.py:155 | the total printed in a report line reads back as the total |
| ShoppingList.Report | backend/api/views.py:152-155 | the report starts with the header "Список покупок:\n", and is exactly the header iff there is no group |
| ShoppingList.RenderReport | backend/api/views.py:152-155 | the loop builds the header followed by one "- name в количестве: total unit,\n" line per group, in group order |
| ShoppingList.DownloadShoppingCart | backend/api/views.py:143-157 | for a user, the report of their cart's groups; an anonymous caller makes the query raise |
| ShoppingList.EmptyCartHeaderOnly | backend/api/views.py:152-156 | an empty cart downloads the header alone |
| Validators.MatchedSymbols | backend/users/validators.py:12 | the reported set holds exactly the characters that occur in some match |
| Validators.ValidateUsername | backend/users/validators.py:7-15 | a reserved name is refused first; otherwise any match of the pattern refuses the name, reporting exactly the characters the matches cover; accepted iff the name is not reserved and nothing matched |
| Validators.CharClassVerdict | backend/users/validators.py:10-13 | with a one-character-class pattern, a name that is not reserved is accepted iff none of its characters is in the class, and otherwise the report is exactly its offending characters |
| Validators.EmptyMatchRefusesSilently | backend/users/validators.py:10-13 | a findall result made only of empty matches still refuses the name, with an empty set of characters |
| Validators.ColourPatternMatches | backend/recipes/models.py:40-43 | the pattern matches iff the string is '#' and 3 or 6 hex digits of either case, optionally followed by one final newline (Python's `$`) |
| Validators.ValidTagColour | backend/recipes/models.py:35-45 | accepted iff the string is an intended colour ('#' and 3 or 6 hex digits) or a 3-digit colour followed by one newline; the 6-digit one with a newline exceeds max_length |
| Validators.CaseInsensitiveColour | backend/recipes/models.py:41 | for all strings: two values that differ only in the case of their letters get the same verdict |
| Validators.ColourExamples | backend/recipes/models.py:41 | examples: upper- and lower-case colours are accepted; wrong lengths, a missing '#' and a non-hex digit are refused |
| Validators.TrailingNewlineColour | backend/recipes/models.py:39-44 | "#fff\n" passes the column validators although it is not a colour; "#ffffff\n" is stopped by max_length |
| Validators.AllFlaggedForDeletion | backend/recipes/validate_delete.py:10-13 | true iff every form with cleaned data has a truthy DELETE flag |
| Validators.CleanFormset | backend/recipes/validate_delete.py:7-14 | refused iff every cleaned form is flagged DELETE; accepted iff some cleaned form is not |
| Validators.NoCleanedFormIsRefused | backend/recipes/validate_delete.py:13-14 | with no cleaned form at all the formset is still refused |
| Validators.CleanFormsetOrderIndependent | backend/recipes/validate_delete.py:10-13 | the verdict does not depend on the order of the forms |
| Ordering.SortBy | backend/recipes/models.py:98-99 | ORDER BY: the result is a permutation of the input, sorted by the comparator |
| Ordering.IngredientListing | backend/recipes/models.py:20-21 | ingredients are listed by name ascending, each scanned row once |
| Ordering.TagListing | backend/recipes/models.py:51-52 | tags are listed by name ascending, each scanned row once |
| Ordering.RecipeListing | backend/recipes/models.py:98-99 | recipes are listed newest first, each scanned row once |
| Ordering.UserListing | backend/users/models.py:32-35 | users are listed by username ascending, each scanned row once |

## Left out

- HTTP routing, permission classes, authentication, pagination and response bodies. These are framework configuration. Mutators assume an authenticated caller, because the permission classes reject anyone else.
- Image fields (Base64 decoding and storage), the CSV import command and the admin registration. These are file I/O or declarative UI. The admin's only logic is the formset check, which is modelled.
- `BaseUserSerializer.get_recipes` and `SubscriptionsSerializer.get_recipes_count`. These are never called, because `recipes` and `recipes_count` are declared as plain fields.
- The `subscriptions` list view and the representation `SubscribeSerializer` returns. The subscribe request's serializer validation is taken to pass.
- The user registration flow and the tag and ingredient endpoints' plain CRUD. Only their constraints are modelled, through `InsertUser`, `InsertTag` and the deletes.
- Email format, the `max_length` of names and other text columns, and the whitespace stripping the serializers do before validation. A recipe name or text of spaces only is blank after stripping; the model refuses only the empty string. Colours and usernames are modelled as the validators receive them.
- The values of the reserved-name list and the forbidden-character pattern, and the regex engine. The validator receives the list `re.findall` returns as a parameter; a one-character class is modelled by `CharClassMatches`.
- Query-string parsing: the filters receive already-parsed values (`author` as an integer, the list flags as booleans). A non-numeric `author` or other unparsable value, which the filter form refuses with 400, is not modelled.
- Store.InsertUser and Store.InsertTag: when several unique columns clash, the model reports the first in declaration order. The database reports whichever constraint it checks first, which this model does not fix.
- RecipeFilters.TagsFilter: the error names the first unknown slug in query order. Django iterates a set whose order Python does not fix, so the contract states only that the named slug is one of the unknown ones.
- Ordering.IngredientListing: names compare by code point. The database collation is not modelled.
- Ordering.TagListing: names compare by code point. The database collation is not modelled.
- Ordering.UserListing: usernames compare by code point. The database collation is not modelled.
- Ordering.RecipeListing: ties in `pub_date` come in the order the sort leaves them. The database gives no order for ties, so only sortedness and the permutation are stated.
- Favorite and ShoppingCart have no default ordering. Their `Meta` does not inherit `BaseListMixin.Meta`, so `-added_date` does not apply.
- Subscription's `-id` ordering is the reverse of the follows sequence, which is kept in id order. It is not stated separately.
- The output order of the shopping list. Grouped rows have no defined order, so the list is stated per key: distinct keys, exact key set, exact totals. The model emits groups in first-occurrence order.
- Concurrency: the race between the two steps of get-or-create, and transactions. Each write is taken to be atomic, so a failed bulk insert leaves the store unchanged.
- RecipeWrites.CreateRecipe: a failed bulk insert leaves the store unchanged, because the write is taken to be atomic. The transaction settings are not part of this model. Without a transaction, the recipe row and its tags would remain.
- RecipeWrites.UpdateRecipe: a failed bulk insert is modelled the same way. Without a transaction, the cleared lines would stay cleared.
- RecipeWrites.UpdateRecipe: omitted fields are treated as in a partial (PATCH) update. The required-field check a full (PUT) update adds is not modelled.
- Integer widths: `amount` and `cooking_time` are bounded by the 0..32767 column range. Sums are unbounded integers, as in the database's SUM.

## Findings

| source | as written | input that shows it | evidently intended | confidence | as-written member | corrected member |
|---|---|---|---|---|---|---|
| backend/api/filters.py:36 | `filter_is_favorited` and `filter_is_in_shopping_cart` read `user.favorites` and `user.shopping_carts`. The user foreign keys of Favorite and ShoppingCart (backend/recipes/models.py:157-160, 177-180) declare no `related_name`, so those attributes do not exist; the reverse accessors are `favorite_set` and `shoppingcart_set` | any authenticated request to the recipe list with `is_favorited=1` or `is_in_shopping_cart=0` raises AttributeError | True keeps exactly the caller's listed recipes and False exactly the unlisted ones, partitioning the queryset | high, not executed | RecipeFilters.MethodFiltersFailForMembers | RecipeFilters.TrueFalsePartition |

=== FILE: filters.dfy ===
/**
 The recipe list filters (api/filters.py, `RecipesFilter`): by author, by
 tag slugs, and the two method filters `is_favorited` and
 `is_in_shopping_cart`. A queryset is a sequence of recipe ids; every filter
 keeps a subsequence of it.

 The method filters as written look up `user.favorites` and
 `user.shopping_carts`, reverse accessors the User model does not have; that
 code path is modelled separately (`ListFilterAsWritten`), and the intended
 behaviour (`ListFilter`) is what the composed filter uses.
 */
module RecipeFilters {
  import opened Common
  import opened Store
  import opened Membership

  /** Is recipe `x` in the caller's list? */
  predicate Listed(s: Store, kind: ListKind, user: UserId, x: RecipeId)
  {
    Pair(user, x) in Rows(s, kind)
  }

  /**
   The `is_favorited` (FavoriteList) / `is_in_shopping_cart` (CartList)
   method, as intended: an anonymous caller gets nothing, True keeps the
   listed recipes, False keeps the unlisted ones (a missing row counts as
   not listed), and any other value returns the queryset unchanged.
   */
  function ListFilter(s: Store, caller: Caller, kind: ListKind, qs: seq<RecipeId>, value: Option<bool>): (r: seq<RecipeId>)
    ensures caller == Anonymous ==> r == []
    ensures caller.Member? && value == Some(true) ==>
              forall x :: x in r <==> x in qs && Listed(s, kind, caller.id, x)
    ensures caller.Member? && value == Some(false) ==>
              forall x :: x in r <==> x in qs && !Listed(s, kind, caller.id, x)
    ensures caller.Member? && value.None? ==> r == qs
    ensures IsSubsequence(r, qs)
  {
    match caller
    case Anonymous => []
    case Member(u) =>
      match value
      case Some(true) =>
        FilterIsSubsequence(qs, (x: RecipeId) => Listed(s, kind, u, x));
        Filter(qs, (x: RecipeId) => Listed(s, kind, u, x))
      case Some(false) =>
        FilterIsSubsequence(qs, (x: RecipeId) => !Listed(s, kind, u, x));
        Filter(qs, (x: RecipeId) => !Listed(s, kind, u, x))
      case None =>
        SubsequenceReflexive(qs);
        qs
  }

  /** For an authenticated caller, True and False split the queryset exactly. */
  lemma TrueFalsePartition(s: Store, user: UserId, kind: ListKind, qs: seq<RecipeId>)
    ensures multiset(ListFilter(s, Member(user), kind, qs, Some(true)))
          + multiset(ListFilter(s, Member(user), kind, qs, Some(false))) == multiset(qs)
  {
    FilterPartition(qs, (x: RecipeId) => Listed(s, kind, user, x), (x: RecipeId) => !Listed(s, kind, user, x));
  }

  /**
   How the filter set invokes a method filter: an absent (empty) value skips
   the method, so the queryset passes through even for an anonymous caller.
   */
  function ApplyListFilter(s: Store, caller: Caller, kind: ListKind, qs: seq<RecipeId>, value: Option<bool>): (r: seq<RecipeId>)
    ensures value.None? ==> r == qs
    ensures value.Some? && caller == Anonymous ==> r == []
    ensures value.Some? && caller.Member? ==> r == ListFilter(s, caller, kind, qs, value)
    ensures IsSubsequence(r, qs)
  {
    if value.None? then
      SubsequenceReflexive(qs);
      qs
    else ListFilter(s, caller, kind, qs, value)
  }

  // ----- the method filters as written -----

  /**
   The reverse accessors the User model has onto the two list tables. Their
   user foreign keys (recipes/models.py:157-160 and 177-180) declare no
   related_name, so Django names them `<model>_set`.
   */
  function UserListAccessor(name: string): (k: Option<ListKind>)
    ensures k == Some(FavoriteList) <==> name == "favorite_set"
    ensures k == Some(CartList) <==> name == "shoppingcart_set"
  {
    if name == "favorite_set" then Some(FavoriteList)
    else if name == "shoppingcart_set" then Some(CartList)
    else None
  }

  /** The accessor names the two method filters use. */
  const FAVORITES_ACCESSOR: string := "favorites"
  const CART_ACCESSOR: string := "shopping_carts"

  /** An exception escaping the filter (a server error). */
  datatype Fault = AttributeError(name: string)

  /**
   The method filter as written: after the anonymous check it reads the
   reverse accessor `accessor` of the user, which raises when the User model
   has no such attribute.
   */
  function ListFilterAsWritten(s: Store, caller: Caller, accessor: string, qs: seq<RecipeId>, value: Option<bool>)
    : (r: Result<seq<RecipeId>, Fault>)
    ensures caller == Anonymous ==> r == Ok([])
    ensures caller.Member? ==> (r.Err? <==> UserListAccessor(accessor).None?)
    ensures r.Ok? && caller.Member? ==> r.value == ListFilter(s, caller, UserListAccessor(accessor).value, qs, value)
  {
    match caller
    case Anonymous => Ok([])
    case Member(_) =>
      match UserListAccessor(accessor)
      case None => Err(AttributeError(accessor))
      case Some(kind) => Ok(ListFilter(s, caller, kind, qs, value))
  }

  /**
   As written, both method filters raise for every authenticated caller who
   passes a value, whatever the store and the queryset.
   */
  lemma MethodFiltersFailForMembers(s: Store, user: UserId, qs: seq<RecipeId>, value: Option<bool>)
    ensures ListFilterAsWritten(s, Member(user), FAVORITES_ACCESSOR, qs, value) == Err(AttributeError("favorites"))
    ensures ListFilterAsWritten(s, Member(user), CART_ACCESSOR, qs, value) == Err(AttributeError("shopping_carts"))
  {
  }

  /** With the accessor names the models do provide, the method filters behave as intended. */
  lemma DefaultAccessorsGiveIntended(s: Store, caller: Caller, qs: seq<RecipeId>, value: Option<bool>)
    ensures ListFilterAsWritten(s, caller, "favorite_set", qs, value) == Ok(ListFilter(s, caller, FavoriteList, qs, value))
    ensures ListFilterAsWritten(s, caller, "shoppingcart_set", qs, value) == Ok(ListFilter(s, caller, CartList, qs, value))
  {
  }

  // ----- author and tags -----

  /** `author`: keeps the recipes whose author id equals the value; no value, no filtering. */
  function AuthorFilter(s: Store, qs: seq<RecipeId>, author: Option<int>): (r: seq<RecipeId>)
    ensures author.None? ==> r == qs
    ensures author.Some? ==> forall x :: x in r <==>
              x in qs && x in s.recipes.rows && s.recipes.rows[x].author == author.value
    ensures IsSubsequence(r, qs)
  {
    match author
    case None =>
      SubsequenceReflexive(qs);
      qs
    case Some(a) =>
      var keep := (x: RecipeId) => x in s.recipes.rows && s.recipes.rows[x].author == a;
      FilterIsSubsequence(qs, keep);
      Filter(qs, keep)
  }

  /** Does some tag carry slug `slug`? */
  predicate SlugExists(s: Store, slug: string)
  {
    exists t :: t in s.tags.rows && s.tags.rows[t].slug == slug
  }

  /** Does recipe `x` carry a tag whose slug is one of `slugs`? */
  predicate TaggedWithAny(s: Store, x: RecipeId, slugs: seq<string>)
  {
    x in s.recipes.rows && exists t :: t in s.recipes.rows[x].tags && t in s.tags.rows && s.tags.rows[t].slug in slugs
  }

  /** A filter value the form refuses (HTTP 400), naming the slug it could not find. */
  datatype FilterError = UnknownSlug(slug: string)

  /**
   Some slug of `slugs` that names no tag, if there is one. The form field
   reports the first unknown value of the de-duplicated set it iterates, an
   order Python does not fix; the model takes the first in query order.
   */
  function FirstUnknownSlug(s: Store, slugs: seq<string>): (r: Option<string>)
    ensures r.None? <==> forall i :: 0 <= i < |slugs| ==> SlugExists(s, slugs[i])
    ensures r.Some? ==> r.value in slugs && !SlugExists(s, r.value)
  {
    if slugs == [] then None
    else if !SlugExists(s, slugs[0]) then Some(slugs[0])
    else
      var rest := FirstUnknownSlug(s, slugs[1..]);
      assert forall i :: 1 <= i < |slugs| ==> slugs[i] == slugs[1..][i - 1];
      rest
  }

  /**
   `tags`: every given slug must name a tag (otherwise the form is invalid
   and the error names one slug that does not); no slugs, no filtering;
   otherwise a recipe is kept when any of its tags has one of the slugs.
   */
  function TagsFilter(s: Store, qs: seq<RecipeId>, slugs: seq<string>): (r: Result<seq<RecipeId>, FilterError>)
    ensures r.Err? <==> exists i :: 0 <= i < |slugs| && !SlugExists(s, slugs[i])
    ensures r.Err? ==> r.error.slug in slugs && !SlugExists(s, r.error.slug)
    ensures r.Ok? && slugs == [] ==> r.value == qs
    ensures r.Ok? && slugs != [] ==> forall x :: x in r.value <==> x in qs && TaggedWithAny(s, x, slugs)
    ensures r.Ok? ==> IsSubsequence(r.value, qs)
  {
    match FirstUnknownSlug(s, slugs)
    case Some(sl) => Err(UnknownSlug(sl))
    case None =>
      if slugs == [] then
        SubsequenceReflexive(qs);
        Ok(qs)
      else
        var keep := (x: RecipeId) => TaggedWithAny(s, x, slugs);
        FilterIsSubsequence(qs, keep);
        Ok(Filter(qs, keep))
  }

  /** The query parameters of the recipe list. */
  datatype RecipeQuery = RecipeQuery(
    author: Option<int>,
    tags: seq<string>,
    isFavorited: Option<bool>,
    isInShoppingCart: Option<bool>)

  /**
   The condition a list filter value puts on recipe `x`: none when absent;
   otherwise the caller must be signed in and `x` must be listed exactly when
   the value is True.
   */
  predicate ListCondition(s: Store, caller: Caller, kind: ListKind, x: RecipeId, value: Option<bool>)
  {
    value.Some? ==> caller.Member? && (Listed(s, kind, caller.id, x) <==> value.value)
  }

  /** Recipe `x` meets every condition the query states. */
  predicate Meets(s: Store, caller: Caller, x: RecipeId, q: RecipeQuery)
  {
    && (q.author.Some? ==> x in s.recipes.rows && s.recipes.rows[x].author == q.author.value)
    && (q.tags != [] ==> TaggedWithAny(s, x, q.tags))
    && ListCondition(s, caller, FavoriteList, x, q.isFavorited)
    && ListCondition(s, caller, CartList, x, q.isInShoppingCart)
  }

  /** A list filter stage keeps exactly the recipes that meet its condition. */
  lemma ListStageKeeps(s: Store, caller: Caller, kind: ListKind, qs: seq<RecipeId>, value: Option<bool>)
    ensures forall x :: x in ApplyListFilter(s, caller, kind, qs, value) <==> x in qs && ListCondition(s, caller, kind, x, value)
  {
  }

  /**
   The whole filter set, with the intended method filters: the form is
   validated first, then the filters run in declaration order. A recipe of
   the queryset is kept exactly when it meets every given condition, and the
   kept recipes stay in queryset order, each as often as in the queryset.
   */
  function FilterRecipes(s: Store, caller: Caller, qs: seq<RecipeId>, q: RecipeQuery): (r: Result<seq<RecipeId>, FilterError>)
    ensures r.Err? <==> exists i :: 0 <= i < |q.tags| && !SlugExists(s, q.tags[i])
    ensures r.Ok? ==> forall x :: x in r.value <==> x in qs && Meets(s, caller, x, q)
    ensures r.Ok? ==> IsSubsequence(r.value, qs)
    ensures r.Ok? && Distinct(qs) ==> Distinct(r.value)
    ensures r.Ok? && caller == Anonymous && (q.isFavorited.Some? || q.isInShoppingCart.Some?) ==> r.value == []
  {
    var byAuthor := AuthorFilter(s, qs, q.author);
    match TagsFilter(s, byAuthor, q.tags)
    case Err(e) => Err(e)
    case Ok(byTags) =>
      var byFavorite := ApplyListFilter(s, caller, FavoriteList, byTags, q.isFavorited);
      ListStageKeeps(s, caller, FavoriteList, byTags, q.isFavorited);
      var byCart := ApplyListFilter(s, caller, CartList, byFavorite, q.isInShoppingCart);
      ListStageKeeps(s, caller, CartList, byFavorite, q.isInShoppingCart);
      SubsequenceTransitive(byTags, byAuthor, qs);
      SubsequenceTransitive(byFavorite, byTags, qs);
      SubsequenceTransitive(byCart, byFavorite, qs);
      if Distinct(qs) then
        SubsequenceDistinct(byCart, qs);
        Ok(byCart)
      else Ok(byCart)
  }
}

=== FILE: membership.dfy ===
/**
 The membership flags shown in representations: `is_subscribed` of a user
 (api/utils.py, `check_subscribed`) and `is_favorited` / `is_in_shopping_cart`
 of a recipe (api/serializers.py, `RecipeSerializer`). The request context
 is passed explicitly: it may be missing, anonymous, or an authenticated user.
 */
module Membership {
  import opened Common
  import opened Store
  import opened Mutators

  /** Who is asking: an anonymous visitor or an authenticated user. */
  datatype Caller = Anonymous | Member(id: UserId)

  /**
   `is_subscribed`: false without a request or for an anonymous caller,
   otherwise whether the caller has a subscription row for `author`.
   */
  function CheckSubscribed(s: Store, request: Option<Caller>, author: UserId): (b: bool)
    ensures request.None? || request == Some(Anonymous) ==> !b
    ensures b <==> exists u :: request == Some(Member(u)) && Follow(u, author) in s.follows
  {
    match request
    case None => false
    case Some(Anonymous) => false
    case Some(Member(u)) => Follow(u, author) in s.follows
  }

  /**
   The value of a recipe flag: JSON null (the method falls off its end for an
   anonymous caller), a boolean, or the AttributeError raised when the
   serializer has no request (`request.user` is read before `request` is tested).
   */
  datatype Flag = Null | Known(value: bool) | NoRequestFault

  /** `is_favorited` (FavoriteList) or `is_in_shopping_cart` (CartList) of recipe `recipe`. */
  function FavoritedOrInCart(s: Store, request: Option<Caller>, kind: ListKind, recipe: RecipeId): (f: Flag)
    ensures f == NoRequestFault <==> request.None?
    ensures f == Null <==> request == Some(Anonymous)
    ensures f == Known(true) <==> exists u :: request == Some(Member(u)) && Pair(u, recipe) in Rows(s, kind)
    ensures f != Known(true) ==> forall u :: request == Some(Member(u)) ==> Pair(u, recipe) !in Rows(s, kind)
  {
    match request
    case None => NoRequestFault
    case Some(Anonymous) => Null
    case Some(Member(u)) => Known(Pair(u, recipe) in Rows(s, kind))
  }

  /** After a successful add the flag is true; after a successful remove it is false. */
  lemma FlagFollowsMutation(s: Store, kind: ListKind, verb: Verb, user: UserId, pk: RecipeId)
    requires pk in s.recipes.rows
    ensures var r := AddOrRemoveItem(s, kind, verb, user, pk);
            var flag := FavoritedOrInCart(r.store, Some(Member(user)), kind, pk);
            && (verb == Post ==> flag == Known(true))
            && (verb == Delete ==> flag == Known(false))
  {
  }

  /** Mutating one list never changes the flag of the other list. */
  lemma OtherListFlagUnchanged(s: Store, kind: ListKind, other: ListKind, verb: Verb,
                               user: UserId, pk: RecipeId, caller: Option<Caller>, recipe: RecipeId)
    requires other != kind
    ensures var r := AddOrRemoveItem(s, kind, verb, user, pk);
            FavoritedOrInCart(r.store, caller, other, recipe) == FavoritedOrInCart(s, caller, other, recipe)
  {
  }

  /**
   After subscribing, or hitting the unique constraint of an existing
   subscription, the subscriber sees `is_subscribed` true; after
   unsubscribing, false.
   */
  lemma SubscribedFlagFollowsMutation(s: Store, verb: Verb, user: UserId, author: UserId)
    requires author in s.users.rows && user != author
    ensures var r := Subscribe(s, verb, user, author);
            CheckSubscribed(r.store, Some(Member(user)), author) <==> verb == Post
  {
  }
}

=== FILE: mutators.dfy ===
/**
 The relationship mutators of the API views (api/views.py, api/utils.py):
 adding a recipe to or removing it from a user's favorites or shopping cart,
 and subscribing to or unsubscribing from an author.

 Each (user, recipe) pair of a list is a two-state machine, absent or
 present. Adding is get-or-create and reports whether it created the row;
 removing is delete-or-404. The two helpers in views.py and utils.py are the
 same code and are modelled once. The caller is always an authenticated
 user here: the permission classes that reject anonymous callers are not
 part of this model.
 */
module Mutators {
  import opened Common
  import opened Store

  /** The HTTP method of the request. */
  datatype Verb = Post | Delete

  /** The short recipe representation returned on creation (the image is not modelled). */
  datatype ShortRecipe = ShortRecipe(id: RecipeId, name: string, cookingTime: SmallUint)

  datatype ItemOutcome =
    | Added(recipe: ShortRecipe)
    | AlreadyPresent
    | Removed
    | RecipeNotFound
    | EntryNotFound

  /** A new store and what the request reported. */
  datatype Step<O> = Step(store: Store, outcome: O)

  /** The response status of each outcome. */
  function ItemStatus(o: ItemOutcome): (code: int)
    ensures o.Added? <==> code == 201
    ensures o == AlreadyPresent <==> code == 400
    ensures o == Removed <==> code == 204
    ensures o == RecipeNotFound || o == EntryNotFound <==> code == 404
  {
    match o
    case Added(_) => 201
    case AlreadyPresent => 400
    case Removed => 204
    case RecipeNotFound => 404
    case EntryNotFound => 404
  }

  function Short(s: Store, pk: RecipeId): ShortRecipe
    requires pk in s.recipes.rows
  {
    var r := s.recipes.rows[pk];
    ShortRecipe(pk, r.name, r.cookingTime)
  }

  /**
   Adds or removes the (user, recipe) row of a favorites or cart list. An
   unknown recipe is reported before anything changes; otherwise POST creates
   the row when it is absent and reports it as already there when present,
   and DELETE removes the row when present and reports not-found when absent.
   */
  function AddOrRemoveItem(s: Store, kind: ListKind, verb: Verb, user: UserId, pk: RecipeId): (r: Step<ItemOutcome>)
    ensures pk !in s.recipes.rows ==> r == Step(s, RecipeNotFound)
    ensures r.outcome.Added? <==> pk in s.recipes.rows && verb == Post && Pair(user, pk) !in Rows(s, kind)
    ensures r.outcome == AlreadyPresent <==> pk in s.recipes.rows && verb == Post && Pair(user, pk) in Rows(s, kind)
    ensures r.outcome == Removed <==> pk in s.recipes.rows && verb == Delete && Pair(user, pk) in Rows(s, kind)
    ensures r.outcome == EntryNotFound <==> pk in s.recipes.rows && verb == Delete && Pair(user, pk) !in Rows(s, kind)
    ensures r.outcome.Added? ==> r.outcome.recipe.id == pk && r.outcome.recipe.name == s.recipes.rows[pk].name
                                 && r.outcome.recipe.cookingTime == s.recipes.rows[pk].cookingTime
    ensures !r.outcome.Added? && !r.outcome.Removed? ==> r.store == s
    ensures r.outcome.Added? ==> forall p :: p in Rows(r.store, kind) <==> p in Rows(s, kind) || p == Pair(user, pk)
    ensures r.outcome.Removed? ==> forall p :: p in Rows(r.store, kind) <==> p in Rows(s, kind) && p != Pair(user, pk)
    ensures r.store == WithRows(s, kind, Rows(r.store, kind))
    ensures Valid(s) && user in s.users.rows ==> Valid(r.store)
    ensures ItemStatus(r.outcome) == 404 <==>
              pk !in s.recipes.rows || (verb == Delete && Pair(user, pk) !in Rows(s, kind))
    ensures ItemStatus(r.outcome) in {201, 204} <==> r.store != s
  {
    if pk !in s.recipes.rows then Step(s, RecipeNotFound)
    else
      var entry := Pair(user, pk);
      var rows := Rows(s, kind);
      match verb
      case Post =>
        if entry in rows then Step(s, AlreadyPresent)
        else
          assert Distinct(rows) ==> Distinct(rows + [entry]);
          Step(WithRows(s, kind, rows + [entry]), Added(Short(s, pk)))
      case Delete =>
        if entry !in rows then Step(s, EntryNotFound)
        else Step(WithRows(s, kind, Filter(rows, (p: Pair) => p != entry)), Removed)
  }

  /** Adding twice: the second add reports the row as present, changes nothing, and exactly one row exists. */
  lemma AddTwiceKeepsOneRow(s: Store, kind: ListKind, user: UserId, pk: RecipeId)
    requires Valid(s) && user in s.users.rows && pk in s.recipes.rows
    ensures var first := AddOrRemoveItem(s, kind, Post, user, pk);
            var second := AddOrRemoveItem(first.store, kind, Post, user, pk);
            && second == Step(first.store, AlreadyPresent)
            && multiset(Rows(second.store, kind))[Pair(user, pk)] == 1
  {
    var first := AddOrRemoveItem(s, kind, Post, user, pk);
    assert Pair(user, pk) in Rows(first.store, kind);
    DistinctCountOne(Rows(first.store, kind), Pair(user, pk));
  }

  /** Adding and then removing leaves no row, and removing once more reports not-found. */
  lemma AddThenRemoveLeavesNoRow(s: Store, kind: ListKind, user: UserId, pk: RecipeId)
    requires pk in s.recipes.rows
    ensures var added := AddOrRemoveItem(s, kind, Post, user, pk);
            var removed := AddOrRemoveItem(added.store, kind, Delete, user, pk);
            var again := AddOrRemoveItem(removed.store, kind, Delete, user, pk);
            && removed.outcome == Removed
            && Pair(user, pk) !in Rows(removed.store, kind)
            && again == Step(removed.store, EntryNotFound)
  {
  }

  /** The outcome of a subscribe or unsubscribe request. */
  datatype FollowOutcome =
    | Subscribed(author: UserId)
    | CannotFollowSelf
    | UniqueViolation
    | Unsubscribed
    | AuthorNotFound
    | SubscriptionNotFound

  /** The response status of each outcome; a unique violation surfaces as a server error. */
  function FollowStatus(o: FollowOutcome): (code: int)
    ensures o.Subscribed? <==> code == 201
    ensures o == CannotFollowSelf <==> code == 400
    ensures o == Unsubscribed <==> code == 204
    ensures o == AuthorNotFound || o == SubscriptionNotFound <==> code == 404
    ensures o == UniqueViolation <==> code == 500
  {
    match o
    case Subscribed(_) => 201
    case CannotFollowSelf => 400
    case UniqueViolation => 500
    case Unsubscribed => 204
    case AuthorNotFound => 404
    case SubscriptionNotFound => 404
  }

  /**
   Subscribes `user` to, or unsubscribes them from, the author `authorId`.
   An unknown author is reported first. On POST, following oneself is
   refused before the store is touched; an existing subscription is not
   checked by the view and reaches the unique constraint. On DELETE, a
   missing subscription is reported as not found.
   */
  function Subscribe(s: Store, verb: Verb, user: UserId, authorId: UserId): (r: Step<FollowOutcome>)
    ensures authorId !in s.users.rows ==> r == Step(s, AuthorNotFound)
    ensures verb == Post && authorId in s.users.rows && user == authorId ==> r == Step(s, CannotFollowSelf)
    ensures r.outcome.Subscribed? <==>
              verb == Post && authorId in s.users.rows && user != authorId && Follow(user, authorId) !in s.follows
    ensures r.outcome == UniqueViolation <==>
              verb == Post && authorId in s.users.rows && user != authorId && Follow(user, authorId) in s.follows
    ensures r.outcome == Unsubscribed <==>
              verb == Delete && authorId in s.users.rows && Follow(user, authorId) in s.follows
    ensures r.outcome == SubscriptionNotFound <==>
              verb == Delete && authorId in s.users.rows && Follow(user, authorId) !in s.follows
    ensures !r.outcome.Subscribed? && !r.outcome.Unsubscribed? ==> r.store == s
    ensures r.outcome.Subscribed? ==> forall f :: f in r.store.follows <==> f in s.follows || f == Follow(user, authorId)
    ensures r.outcome.Unsubscribed? ==> forall f :: f in r.store.follows <==> f in s.follows && f != Follow(user, authorId)
    ensures r.store == s.(follows := r.store.follows)
    ensures Valid(s) && user in s.users.rows ==> Valid(r.store)
    ensures FollowStatus(r.outcome) == 404 <==>
              authorId !in s.users.rows || (verb == Delete && Follow(user, authorId) !in s.follows)
    ensures FollowStatus(r.outcome) in {201, 204} <==> r.store != s
  {
    if authorId !in s.users.rows then Step(s, AuthorNotFound)
    else
      var row := Follow(user, authorId);
      match verb
      case Post =>
        if user == authorId then Step(s, CannotFollowSelf)
        else if row in s.follows then Step(s, UniqueViolation)
        else
          assert Distinct(s.follows) ==> Distinct(s.follows + [row]);
          Step(s.(follows := s.follows + [row]), Subscribed(authorId))
      case Delete =>
        if row !in s.follows then Step(s, SubscriptionNotFound)
        else Step(s.(follows := Filter(s.follows, (f: Follow) => f != row)), Unsubscribed)
  }

  /** Following oneself is refused whatever the store holds, and never creates a row. */
  lemma SelfSubscriptionNeverStored(s: Store, user: UserId)
    requires user in s.users.rows
    ensures Subscribe(s, Post, user, user) == Step(s, CannotFollowSelf)
    ensures Follow(user, user) in Subscribe(s, Post, user, user).store.follows <==> Follow(user, user) in s.follows
  {
  }

  /** The storage layer alone does accept a self-subscription row; only the view refuses it. */
  lemma StoreAllowsSelfFollow(s: Store, user: UserId)
    requires Valid(s) && user in s.users.rows && Follow(user, user) !in s.follows
    ensures Valid(s.(follows := s.follows + [Follow(user, user)]))
  {
    assert Distinct(s.follows + [Follow(user, user)]);
  }
}

=== FILE: ordering.dfy ===
/**
 The default orderings the models declare: ingredients, tags and users by
 name (recipes/models.py, users/models.py), recipes newest first. A listing
 takes the rows of a table in the order the database happens to scan them
 and returns them sorted by the model's key; rows with equal keys may come
 in any order, so only sortedness and the permutation are stated.
 */
module Ordering {
  import opened Store

  /** `xs` is ordered by `le`: every earlier element is `le` every later one. */
  predicate SortedBy<T>(xs: seq<T>, le: (T, T) -> bool)
  {
    forall i, j :: 0 <= i < j < |xs| ==> le(xs[i], xs[j])
  }

  /** `le` compares any two elements and is transitive: an ORDER BY key order. */
  ghost predicate TotalPreorder<T(!new)>(le: (T, T) -> bool)
  {
    && (forall a, b :: le(a, b) || le(b, a))
    && (forall a, b, c :: le(a, b) && le(b, c) ==> le(a, c))
  }

  /** Inserts `x` into a sorted sequence after the elements that must precede it. */
  function InsertSorted<T(!new)>(x: T, xs: seq<T>, le: (T, T) -> bool): (r: seq<T>)
    requires TotalPreorder(le)
    requires SortedBy(xs, le)
    ensures multiset(r) == multiset(xs) + multiset{x}
    ensures SortedBy(r, le)
  {
    if xs == [] then [x]
    else if le(x, xs[0]) then
      assert forall y :: y in xs ==> le(xs[0], y) by {
        forall y | y in xs ensures le(xs[0], y) {
          var j :| 0 <= j < |xs| && xs[j] == y;
        }
      }
      ConsSorted(x, xs, le);
      [x] + xs
    else
      var rest := InsertSorted(x, xs[1..], le);
      assert xs == [xs[0]] + xs[1..];
      assert forall y :: y in rest ==> le(xs[0], y) by {
        forall y | y in rest ensures le(xs[0], y) {
          assert y in multiset(rest);
          if y != x {
            assert y in multiset(xs[1..]);
            var j :| 0 <= j < |xs[1..]| && xs[1..][j] == y;
            assert xs[j + 1] == y;
          }
        }
      }
      ConsSorted(xs[0], rest, le);
      [xs[0]] + rest
  }

  /** An element `le` every element of a sorted sequence can head it. */
  lemma ConsSorted<T>(x: T, xs: seq<T>, le: (T, T) -> bool)
    requires SortedBy(xs, le)
    requires forall y :: y in xs ==> le(x, y)
    ensures SortedBy([x] + xs, le)
  {
    var r := [x] + xs;
    forall i, j | 0 <= i < j < |r|
      ensures le(r[i], r[j])
    {
      if i == 0 {
        assert r[j] == xs[j - 1];
      } else {
        assert r[i] == xs[i - 1] && r[j] == xs[j - 1];
      }
    }
  }

  /** ORDER BY `le`: the rows sorted, each kept as often as it occurs. */
  function SortBy<T(!new)>(xs: seq<T>, le: (T, T) -> bool): (r: seq<T>)
    requires TotalPreorder(le)
    ensures multiset(r) == multiset(xs)
    ensures SortedBy(r, le)
  {
    if xs == [] then []
    else
      assert xs == [xs[0]] + xs[1..];
      InsertSorted(xs[0], SortBy(xs[1..], le), le)
  }

  // ----- string order -----

  /** Code-point lexicographic order on strings; a prefix sorts first. */
  predicate LexLeq(a: string, b: string)
  {
    if a == [] then true
    else if b == [] then false
    else if a[0] != b[0] then a[0] < b[0]
    else LexLeq(a[1..], b[1..])
  }

  lemma {:induction false} LexTotal(a: string, b: string)
    ensures LexLeq(a, b) || LexLeq(b, a)
  {
    if a != [] && b != [] && a[0] == b[0] {
      LexTotal(a[1..], b[1..]);
    }
  }

  lemma {:induction false} LexTransitive(a: string, b: string, c: string)
    requires LexLeq(a, b) && LexLeq(b, c)
    ensures LexLeq(a, c)
  {
    if a != [] && b != [] && c != [] && a[0] == b[0] && b[0] == c[0] {
      LexTransitive(a[1..], b[1..], c[1..]);
    }
  }

  /** Rows compared by a string key. */
  function ByKey<T>(key: T -> string): (T, T) -> bool
  {
    (a: T, b: T) => LexLeq(key(a), key(b))
  }

  /** Comparing by a string key is an ORDER BY order. */
  lemma ByKeyPreorder<T(!new)>(key: T -> string)
    ensures TotalPreorder(ByKey(key))
  {
    forall a, b
      ensures ByKey(key)(a, b) || ByKey(key)(b, a)
    {
      LexTotal(key(a), key(b));
    }
    forall a, b, c | ByKey(key)(a, b) && ByKey(key)(b, c)
      ensures ByKey(key)(a, c)
    {
      LexTransitive(key(a), key(b), key(c));
    }
  }

  // ----- the model orderings -----

  function IngredientName(s: Store): IngredientId -> string
  {
    (i: IngredientId) => if i in s.ingredients.rows then s.ingredients.rows[i].name else ""
  }

  function TagName(s: Store): TagId -> string
  {
    (g: TagId) => if g in s.tags.rows then s.tags.rows[g].name else ""
  }

  function Username(s: Store): UserId -> string
  {
    (u: UserId) => if u in s.users.rows then s.users.rows[u].username else ""
  }

  /** Ingredient.Meta.ordering `['name']`: the scanned ingredient ids, by name ascending. */
  function IngredientListing(s: Store, scan: seq<IngredientId>): (r: seq<IngredientId>)
    ensures multiset(r) == multiset(scan)
    ensures forall i, j :: 0 <= i < j < |r| ==> LexLeq(IngredientName(s)(r[i]), IngredientName(s)(r[j]))
  {
    ByKeyPreorder(IngredientName(s));
    SortBy(scan, ByKey(IngredientName(s)))
  }

  /** Tag.Meta.ordering `['name']`: the scanned tag ids, by name ascending. */
  function TagListing(s: Store, scan: seq<TagId>): (r: seq<TagId>)
    ensures multiset(r) == multiset(scan)
    ensures forall i, j :: 0 <= i < j < |r| ==> LexLeq(TagName(s)(r[i]), TagName(s)(r[j]))
  {
    ByKeyPreorder(TagName(s));
    SortBy(scan, ByKey(TagName(s)))
  }

  /** User.Meta.ordering `['username']`: the scanned user ids, by username ascending. */
  function UserListing(s: Store, scan: seq<UserId>): (r: seq<UserId>)
    ensures multiset(r) == multiset(scan)
    ensures forall i, j :: 0 <= i < j < |r| ==> LexLeq(Username(s)(r[i]), Username(s)(r[j]))
  {
    ByKeyPreorder(Username(s));
    SortBy(scan, ByKey(Username(s)))
  }

  function PubDate(s: Store): RecipeId -> int
  {
    (x: RecipeId) => if x in s.recipes.rows then s.recipes.rows[x].pubDate else 0
  }

  /** Newer first. */
  function NewerFirst(s: Store): (RecipeId, RecipeId) -> bool
  {
    (a: RecipeId, b: RecipeId) => PubDate(s)(a) >= PubDate(s)(b)
  }

  /** Recipe.Meta.ordering `['-pub_date']`: the scanned recipe ids, newest first. */
  function RecipeListing(s: Store, scan: seq<RecipeId>): (r: seq<RecipeId>)
    ensures multiset(r) == multiset(scan)
    ensures forall i, j :: 0 <= i < j < |r| ==> PubDate(s)(r[i]) >= PubDate(s)(r[j])
  {
    SortBy(scan, NewerFirst(s))
  }
}

=== FILE: recipe_writes.dfy ===
/**
 Recipe creation and update (api/serializers.py, `RecipeCreateSerializer`).
 Ingredient lines and tags are replaced wholesale when given and left alone
 when omitted; there is no merging. Validation by the serializer happens
 before any write; the ingredient lines are bulk-inserted without checks of
 their own, so a repeated ingredient, an unknown ingredient or an amount out
 of the column's range is refused by the database.
 */
module RecipeWrites {
  import opened Common
  import opened Store

  /** One `{"id": ..., "amount": ...}` item of the request; both are plain integers. */
  datatype IngredientInput = IngredientInput(id: int, amount: int)

  /** The request fields the serializer validates. */
  datatype Field = NameField | TextField | CookingTimeField | TagsField

  datatype WriteError =
    | RecipeNotFound                 // update of an unknown id (404)
    | InvalidFields(fields: set<Field>)  // serializer validation (400)
    | DatabaseError                  // the bulk insert violated a constraint (500)

  /** The ingredient lines of one recipe, in table order. */
  function LinesOf(s: Store, recipe: RecipeId): seq<LineRow>
  {
    Filter(s.lines, ForRecipe(recipe))
  }

  function ForRecipe(recipe: RecipeId): LineRow -> bool
  {
    (l: LineRow) => l.recipe == recipe
  }

  function NotForRecipe(recipe: RecipeId): LineRow -> bool
  {
    (l: LineRow) => l.recipe != recipe
  }

  /** The database accepts the bulk insert of these items for one recipe. */
  predicate BulkInsertable(s: Store, items: seq<IngredientInput>)
  {
    && (forall i :: 0 <= i < |items| ==> 0 <= items[i].id && items[i].id in s.ingredients.rows)
    && (forall i :: 0 <= i < |items| ==> 0 <= items[i].amount <= SMALL_UINT_MAX)
    && (forall i, j :: 0 <= i < j < |items| ==> items[i].id != items[j].id)
  }

  /**
   `save_ingredients`: the rows the bulk insert writes for `recipe`, one per
   item and in item order, or the database error. Items are not deduplicated:
   a repeated ingredient id violates the (recipe, ingredient) constraint.
   */
  function SaveIngredients(s: Store, recipe: RecipeId, items: seq<IngredientInput>): (r: Result<seq<LineRow>, WriteError>)
    ensures r.Ok? <==> BulkInsertable(s, items)
    ensures r.Err? ==> r.error == DatabaseError
    ensures r.Ok? ==> |r.value| == |items| && forall i :: 0 <= i < |items| ==>
              && r.value[i].recipe == recipe
              && r.value[i].ingredient == items[i].id
              && r.value[i].amount == Some(items[i].amount)
    ensures r.Ok? ==> Distinct(r.value) && LinesKeyed(r.value)
  {
    if !BulkInsertable(s, items) then Err(DatabaseError)
    else
      var rows := seq(|items|, i requires 0 <= i < |items| => LineRow(recipe, items[i].id, Some(items[i].amount)));
      assert forall a, b :: a in rows && b in rows && a.ingredient == b.ingredient ==> a == b by {
        forall a, b | a in rows && b in rows && a.ingredient == b.ingredient ensures a == b {
          var i :| 0 <= i < |rows| && rows[i] == a;
          var j :| 0 <= j < |rows| && rows[j] == b;
          assert items[i].id == items[j].id;
        }
      }
      Ok(rows)
  }

  /** Two items with the same ingredient id make the bulk insert fail. */
  lemma RepeatedIngredientRefused(s: Store, recipe: RecipeId, items: seq<IngredientInput>, i: nat, j: nat)
    requires i < j < |items| && items[i].id == items[j].id
    ensures SaveIngredients(s, recipe, items) == Err(DatabaseError)
  {
  }

  /** The ids of the requested tags (`recipe.tags.set(...)` keeps each once). */
  function TagSet(tags: seq<int>): (ts: set<TagId>)
    ensures forall t: TagId :: t in ts <==> t in tags
  {
    set t | t in tags && 0 <= t :: t as TagId
  }

  /**
   The serializer's verdict on the fields it validates: name and text may not
   be blank (neither column allows it), cooking_time must fit the column, and
   the tag list must be non-empty and name existing tags. An omitted field (a
   partial update) is not checked.
   */
  function FieldErrors(s: Store, name: Option<string>, text: Option<string>, cookingTime: Option<int>, tags: Option<seq<int>>)
    : (errs: set<Field>)
    ensures NameField in errs <==> name == Some("")
    ensures TextField in errs <==> text == Some("")
    ensures CookingTimeField in errs <==> cookingTime.Some? && !(0 <= cookingTime.value <= SMALL_UINT_MAX)
    ensures TagsField in errs <==>
              tags.Some? && (tags.value == [] || exists t :: t in tags.value && (t < 0 || t !in s.tags.rows))
  {
    (if name == Some("") then {NameField} else {})
    + (if text == Some("") then {TextField} else {})
    + (if cookingTime.Some? && !(0 <= cookingTime.value <= SMALL_UINT_MAX) then {CookingTimeField} else {})
    + (if tags.Some? && (tags.value == [] || exists t :: t in tags.value && (t < 0 || t !in s.tags.rows))
       then {TagsField} else {})
  }

  datatype RecipeInput = RecipeInput(
    name: string,
    text: string,
    cookingTime: int,
    tags: seq<int>,
    ingredients: seq<IngredientInput>)

  /** The store with the recipe's lines replaced by `rows`. */
  function ReplaceLines(s: Store, id: RecipeId, rows: seq<LineRow>): seq<LineRow>
  {
    Filter(s.lines, NotForRecipe(id)) + rows
  }

  /** Replacing a recipe's lines leaves exactly the new rows for it and the other recipes' lines as they were. */
  lemma ReplaceLinesEffect(s: Store, id: RecipeId, rows: seq<LineRow>)
    requires forall l :: l in rows ==> l.recipe == id
    ensures Filter(ReplaceLines(s, id, rows), ForRecipe(id)) == rows
    ensures forall other :: other != id ==> Filter(ReplaceLines(s, id, rows), ForRecipe(other)) == LinesOf(s, other)
  {
    var kept := Filter(s.lines, NotForRecipe(id));
    FilterAppend(kept, rows, ForRecipe(id));
    FilterNone(kept, ForRecipe(id));
    FilterAll(rows, ForRecipe(id));
    forall other | other != id
      ensures Filter(ReplaceLines(s, id, rows), ForRecipe(other)) == LinesOf(s, other)
    {
      FilterAppend(kept, rows, ForRecipe(other));
      FilterNone(rows, ForRecipe(other));
      FilterNested(s.lines, NotForRecipe(id), ForRecipe(other));
    }
  }

  /** Replacing a recipe's lines by insertable rows keeps every constraint. */
  lemma ReplaceLinesValid(u: Store, id: RecipeId, rows: seq<LineRow>)
    requires Valid(u) && id in u.recipes.rows
    requires Distinct(rows) && LinesKeyed(rows)
    requires forall l :: l in rows ==> l.recipe == id && l.ingredient in u.ingredients.rows
    ensures Valid(u.(lines := ReplaceLines(u, id, rows)))
  {
    var kept := Filter(u.lines, NotForRecipe(id));
    DistinctAppend(kept, rows);
  }

  /**
   `create`: validates, inserts the recipe under a fresh id with `now` as its
   publication time and exactly the given tags, then bulk-inserts exactly the
   given ingredient lines. A failed insert leaves the store as it was.
   */
  function CreateRecipe(s: Store, author: UserId, now: int, input: RecipeInput): (r: Result<(Store, RecipeId), WriteError>)
    ensures var errs := FieldErrors(s, Some(input.name), Some(input.text), Some(input.cookingTime), Some(input.tags));
            && (r.Err? <==> errs != {} || !BulkInsertable(s, input.ingredients))
            && (errs != {} ==> r == Err(InvalidFields(errs)))
            && (r.Err? && errs == {} ==> r == Err(DatabaseError))
    ensures r.Ok? ==> var (t, id) := r.value;
              && id in t.recipes.rows
              && t.recipes.rows[id].author == author
              && t.recipes.rows[id].name == input.name
              && t.recipes.rows[id].text == input.text
              && t.recipes.rows[id].cookingTime == input.cookingTime
              && t.recipes.rows[id].pubDate == now
              && (forall g: TagId :: g in t.recipes.rows[id].tags <==> g in input.tags)
              && |LinesOf(t, id)| == |input.ingredients|
              && (forall i :: 0 <= i < |input.ingredients| ==>
                    LinesOf(t, id)[i] == LineRow(id, input.ingredients[i].id, Some(input.ingredients[i].amount)))
              && t.recipes.rows.Keys == s.recipes.rows.Keys + {id}
              && (forall x :: x in s.recipes.rows && x != id ==> t.recipes.rows[x] == s.recipes.rows[x])
              && (forall x :: x != id ==> LinesOf(t, x) == LinesOf(s, x))
              && t.users == s.users && t.ingredients == s.ingredients && t.tags == s.tags
              && t.favorites == s.favorites && t.carts == s.carts && t.follows == s.follows
              && (Valid(s) ==> id !in s.recipes.rows && (author in s.users.rows ==> Valid(t)))
  {
    var errs := FieldErrors(s, Some(input.name), Some(input.text), Some(input.cookingTime), Some(input.tags));
    if errs != {} then Err(InvalidFields(errs))
    else
      var (recipes, id) := s.recipes.Insert(
        Recipe(author, input.name, input.text, input.cookingTime, now, TagSet(input.tags)));
      match SaveIngredients(s, id, input.ingredients)
      case Err(e) => Err(e)
      case Ok(rows) =>
        var u := s.(recipes := recipes);
        var t := u.(lines := ReplaceLines(u, id, rows));
        ReplaceLinesEffect(u, id, rows);
        if Valid(s) && author in s.users.rows then
          assert Valid(u);
          ReplaceLinesValid(u, id, rows);
          Ok((t, id))
        else Ok((t, id))
  }

  /** A partial or full update; an omitted field is None. */
  datatype RecipePatch = RecipePatch(
    name: Option<string>,
    text: Option<string>,
    cookingTime: Option<int>,
    tags: Option<seq<int>>,
    ingredients: Option<seq<IngredientInput>>)

  /**
   The recipe row after an update: the given fields replaced, the omitted
   ones kept, the publication time kept, and the author set to the editor.
   */
  function PatchedRecipe(before: Recipe, editor: UserId, p: RecipePatch): (after: Recipe)
    requires p.cookingTime.Some? ==> 0 <= p.cookingTime.value <= SMALL_UINT_MAX
    ensures after.author == editor
    ensures after.pubDate == before.pubDate
    ensures after.name == (if p.name.Some? then p.name.value else before.name)
    ensures after.text == (if p.text.Some? then p.text.value else before.text)
    ensures after.cookingTime == (if p.cookingTime.Some? then p.cookingTime.value else before.cookingTime)
    ensures p.tags.Some? ==> forall g: TagId :: g in after.tags <==> g in p.tags.value
    ensures p.tags.None? ==> after.tags == before.tags
  {
    Recipe(
      editor,
      if p.name.Some? then p.name.value else before.name,
      if p.text.Some? then p.text.value else before.text,
      if p.cookingTime.Some? then p.cookingTime.value else before.cookingTime,
      before.pubDate,
      if p.tags.Some? then TagSet(p.tags.value) else before.tags)
  }

  /** The store with recipe `id`'s row patched; every other table and row as it was. */
  function PatchRow(s: Store, editor: UserId, id: RecipeId, p: RecipePatch): (t: Store)
    requires id in s.recipes.rows
    requires FieldErrors(s, p.name, p.text, p.cookingTime, p.tags) == {}
    ensures t == s.(recipes := t.recipes)
    ensures t.recipes.rows.Keys == s.recipes.rows.Keys && t.recipes.next == s.recipes.next
    ensures forall x :: x in s.recipes.rows && x != id ==> t.recipes.rows[x] == s.recipes.rows[x]
    ensures t.recipes.rows[id] == PatchedRecipe(s.recipes.rows[id], editor, p)
    ensures Valid(s) && editor in s.users.rows ==> Valid(t)
  {
    var after := PatchedRecipe(s.recipes.rows[id], editor, p);
    var t := s.(recipes := Table(s.recipes.rows[id := after], s.recipes.next));
    if Valid(s) && editor in s.users.rows then
      assert after.tags <= s.tags.rows.Keys;
      assert RecipesWellFormed(t);
      RecipeRowsChangedValid(s, t);
      t
    else t
  }

  /** Changing recipe rows in place, keeping their keys and well-formedness, keeps every constraint. */
  lemma RecipeRowsChangedValid(s: Store, t: Store)
    requires Valid(s)
    requires t == s.(recipes := t.recipes)
    requires t.recipes.rows.Keys == s.recipes.rows.Keys && t.recipes.next == s.recipes.next
    requires RecipesWellFormed(t)
    ensures Valid(t)
  {
    assert t.recipes.Bounded();
    assert LinesWellFormed(t);
    assert PairsWellFormed(t, t.favorites) && PairsWellFormed(t, t.carts);
  }

  /**
   `update`: an unknown recipe is not found; given ingredients clear every
   line of the recipe and leave exactly the given ones; given tags replace
   the tag set; omitted ones stay as they were. The view saves with
   `author=request.user`, so the editor becomes the author.
   */
  function UpdateRecipe(s: Store, editor: UserId, id: RecipeId, p: RecipePatch): (r: Result<Store, WriteError>)
    ensures id !in s.recipes.rows ==> r == Err(RecipeNotFound)
    ensures id in s.recipes.rows ==>
              var errs := FieldErrors(s, p.name, p.text, p.cookingTime, p.tags);
              && (r.Err? <==> errs != {} || (p.ingredients.Some? && !BulkInsertable(s, p.ingredients.value)))
              && (errs != {} ==> r == Err(InvalidFields(errs)))
              && (r.Err? && errs == {} ==> r == Err(DatabaseError))
    ensures r.Ok? ==>
              && id in s.recipes.rows
              && r.value.(lines := s.lines) == PatchRow(s, editor, id, p)
              && (p.ingredients.None? ==> r.value.lines == s.lines)
              && (p.ingredients.Some? ==>
                    && |LinesOf(r.value, id)| == |p.ingredients.value|
                    && (forall i :: 0 <= i < |p.ingredients.value| ==>
                         LinesOf(r.value, id)[i] == LineRow(id, p.ingredients.value[i].id, Some(p.ingredients.value[i].amount))))
              && (forall x :: x != id ==> LinesOf(r.value, x) == LinesOf(s, x))
              && (Valid(s) && editor in s.users.rows ==> Valid(r.value))
  {
    if id !in s.recipes.rows then Err(RecipeNotFound)
    else
      var errs := FieldErrors(s, p.name, p.text, p.cookingTime, p.tags);
      if errs != {} then Err(InvalidFields(errs))
      else
        var u := PatchRow(s, editor, id, p);
        match p.ingredients
        case None => Ok(u)
        case Some(items) =>
          match SaveIngredients(s, id, items)
          case Err(e) => Err(e)
          case Ok(rows) =>
            ReplaceLinesEffect(u, id, rows);
            if Valid(s) && editor in s.users.rows then
              ReplaceLinesValid(u, id, rows);
              Ok(u.(lines := ReplaceLines(u, id, rows)))
            else Ok(u.(lines := ReplaceLines(u, id, rows)))
  }

  /** Updating a recipe's ingredients from one list to another leaves only the new list: no merge. */
  lemma UpdateReplacesNotMerges(s: Store, editor: UserId, id: RecipeId, items: seq<IngredientInput>)
    requires id in s.recipes.rows
    requires BulkInsertable(s, items)
    ensures var r := UpdateRecipe(s, editor, id, RecipePatch(None, None, None, None, Some(items)));
            r.Ok? && forall l :: l in r.value.lines && l.recipe == id ==>
              exists i :: 0 <= i < |items| && l.ingredient == items[i].id && l.amount == Some(items[i].amount)
  {
    var r := UpdateRecipe(s, editor, id, RecipePatch(None, None, None, None, Some(items)));
    var mine := LinesOf(r.value, id);
    forall l | l in r.value.lines && l.recipe == id
      ensures exists i :: 0 <= i < |items| && l.ingredient == items[i].id && l.amount == Some(items[i].amount)
    {
      assert l in mine;
      var i :| 0 <= i < |mine| && mine[i] == l;
      assert l.ingredient == items[i].id && l.amount == Some(items[i].amount);
    }
  }

  /**
   The edited recipe's row after a successful update: the author is the
   editor, the publication time is kept, given fields and tags replace the
   old ones, and omitted ones stay as they were.
   */
  lemma UpdatedRecipeRow(s: Store, editor: UserId, id: RecipeId, p: RecipePatch)
    requires UpdateRecipe(s, editor, id, p).Ok?
    ensures var before := s.recipes.rows[id];
            var after := UpdateRecipe(s, editor, id, p).value.recipes.rows[id];
            && after.author == editor
            && after.pubDate == before.pubDate
            && after.name == (if p.name.Some? then p.name.value else before.name)
            && after.text == (if p.text.Some? then p.text.value else before.text)
            && after.cookingTime == (if p.cookingTime.Some? then p.cookingTime.value else before.cookingTime)
            && (p.tags.Some? ==> forall g: TagId :: g in after.tags <==> g in p.tags.value)
            && (p.tags.None? ==> after.tags == before.tags)
  {
    var r := UpdateRecipe(s, editor, id, p);
    assert r.value.recipes == r.value.(lines := s.lines).recipes;
  }

  /** Replacing a recipe's lines twice with the same rows is the same as replacing them once. */
  lemma {:induction false} ReplaceLinesTwice(u: Store, id: RecipeId, rows: seq<LineRow>)
    requires forall l :: l in rows ==> l.recipe == id
    ensures ReplaceLines(u.(lines := ReplaceLines(u, id, rows)), id, rows) == ReplaceLines(u, id, rows)
  {
    var kept := Filter(u.lines, NotForRecipe(id));
    FilterAppend(kept, rows, NotForRecipe(id));
    FilterNested(u.lines, NotForRecipe(id), NotForRecipe(id));
    FilterNone(rows, NotForRecipe(id));
    assert kept + [] == kept;
  }

  /**
   Updates are idempotent: sending the same update again, to the store the
   first one produced, succeeds and changes nothing, because every given
   field and list replaces its old value rather than adding to it.
   */
  lemma UpdateIdempotent(s: Store, editor: UserId, id: RecipeId, p: RecipePatch)
    requires UpdateRecipe(s, editor, id, p).Ok?
    ensures var once := UpdateRecipe(s, editor, id, p).value;
            UpdateRecipe(once, editor, id, p) == Ok(once)
  {
    var once := UpdateRecipe(s, editor, id, p).value;
    var u := PatchRow(s, editor, id, p);
    assert once.tags == s.tags && once.ingredients == s.ingredients;
    assert FieldErrors(once, p.name, p.text, p.cookingTime, p.tags) == {};
    var u2 := PatchRow(once, editor, id, p);
    assert u2.recipes.rows == once.recipes.rows;
    assert u2 == once;
    match p.ingredients
    case None =>
    case Some(items) =>
      var rows := SaveIngredients(s, id, items).value;
      var rows2 := SaveIngredients(once, id, items).value;
      assert rows2 == rows;
      assert once == u.(lines := ReplaceLines(u, id, rows));
      ReplaceLinesTwice(u, id, rows);
  }
}

=== FILE: seqs.dfy ===
/**
 Shared value types and sequence helpers used by every other module:
 Option and Result for nullable columns and error paths, and an
 order-preserving filter over table rows with the facts the model relies on.
 */
module Common {

  /** A nullable value (a NULL column, a missing key). */
  datatype Option<+T> = None | Some(value: T)

  /** A value or the error that replaced it. */
  datatype Result<+T, +E> = Ok(value: T) | Err(error: E)

  /** No element occurs twice: the rows of a table are distinct records. */
  predicate Distinct<T(==)>(xs: seq<T>)
  {
    forall i, j :: 0 <= i < j < |xs| ==> xs[i] != xs[j]
  }

  /** The rows of `xs` that satisfy `keep`, in their original order (a WHERE clause). */
  function Filter<T(!new)>(xs: seq<T>, keep: T -> bool): (r: seq<T>)
    ensures |r| <= |xs|
    ensures forall x :: x in r <==> x in xs && keep(x)
    ensures Distinct(xs) ==> Distinct(r)
  {
    if xs == [] then []
    else
      var rest := Filter(xs[1..], keep);
      assert Distinct(xs) ==> xs[0] !in xs[1..];
      if keep(xs[0]) then [xs[0]] + rest else rest
  }

  /** Filtering with a predicate and with its negation splits the input exactly. */
  lemma {:induction false} FilterPartition<T(!new)>(xs: seq<T>, keep: T -> bool, drop: T -> bool)
    requires forall x :: drop(x) <==> !keep(x)
    ensures multiset(Filter(xs, keep)) + multiset(Filter(xs, drop)) == multiset(xs)
  {
    if xs != [] {
      FilterPartition(xs[1..], keep, drop);
      assert xs == [xs[0]] + xs[1..];
    }
  }

  /** A filtered sequence keeps the relative order of the input: it is a subsequence. */
  lemma {:induction false} FilterIsSubsequence<T(!new)>(xs: seq<T>, keep: T -> bool)
    ensures IsSubsequence(Filter(xs, keep), xs)
  {
    if xs != [] {
      FilterIsSubsequence(xs[1..], keep);
    }
  }

  /** `ys` can be obtained from `xs` by deleting elements. */
  predicate IsSubsequence<T(==)>(ys: seq<T>, xs: seq<T>)
    decreases |xs|
  {
    if ys == [] then true
    else if xs == [] then false
    else if ys[0] == xs[0] then IsSubsequence(ys[1..], xs[1..])
    else IsSubsequence(ys, xs[1..])
  }

  /** Every sequence is a subsequence of itself (nothing deleted). */
  lemma {:induction false} SubsequenceReflexive<T>(xs: seq<T>)
    ensures IsSubsequence(xs, xs)
  {
    if xs != [] {
      SubsequenceReflexive(xs[1..]);
    }
  }

  /** Putting an element in front of the longer sequence keeps a subsequence one. */
  lemma {:induction false} SubsequenceExtend<T>(ys: seq<T>, xs: seq<T>)
    requires xs != [] && IsSubsequence(ys, xs[1..])
    ensures IsSubsequence(ys, xs)
    decreases |xs|, 0
  {
    if ys != [] && ys[0] == xs[0] {
      SubsequenceDropHead(ys, xs[1..]);
    }
  }

  /** Dropping the first element of a subsequence leaves a subsequence. */
  lemma {:induction false} SubsequenceDropHead<T>(ys: seq<T>, xs: seq<T>)
    requires ys != [] && IsSubsequence(ys, xs)
    ensures IsSubsequence(ys[1..], xs)
    decreases |xs|, 1
  {
    assert xs != [];
    if ys[0] != xs[0] {
      SubsequenceDropHead(ys, xs[1..]);
    }
    SubsequenceExtend(ys[1..], xs);
  }

  /** A subsequence of a subsequence is a subsequence: filters compose. */
  lemma {:induction false} SubsequenceTransitive<T>(zs: seq<T>, ys: seq<T>, xs: seq<T>)
    requires IsSubsequence(zs, ys) && IsSubsequence(ys, xs)
    ensures IsSubsequence(zs, xs)
    decreases |xs|
  {
    if zs != [] {
      assert ys != [] && xs != [];
      if ys[0] == xs[0] {
        if zs[0] == ys[0] {
          SubsequenceTransitive(zs[1..], ys[1..], xs[1..]);
        } else {
          SubsequenceTransitive(zs, ys[1..], xs[1..]);
        }
      } else {
        SubsequenceTransitive(zs, ys, xs[1..]);
        SubsequenceExtend(zs, xs);
      }
    }
  }

  /** Every element of a subsequence is an element of the sequence. */
  lemma {:induction false} SubsequenceMembers<T>(ys: seq<T>, xs: seq<T>)
    requires IsSubsequence(ys, xs)
    ensures forall y :: y in ys ==> y in xs
    decreases |xs|
  {
    if ys != [] {
      assert xs != [];
      if ys[0] == xs[0] {
        SubsequenceMembers(ys[1..], xs[1..]);
        assert forall y :: y in ys ==> y == ys[0] || y in ys[1..];
      } else {
        SubsequenceMembers(ys, xs[1..]);
      }
    }
  }

  /** A subsequence of a sequence without repeats has no repeats. */
  lemma {:induction false} SubsequenceDistinct<T>(ys: seq<T>, xs: seq<T>)
    requires IsSubsequence(ys, xs) && Distinct(xs)
    ensures Distinct(ys)
    decreases |xs|
  {
    if ys != [] {
      assert xs != [];
      assert Distinct(xs[1..]);
      if ys[0] == xs[0] {
        SubsequenceDistinct(ys[1..], xs[1..]);
        SubsequenceMembers(ys[1..], xs[1..]);
        assert ys[0] !in ys[1..];
        forall i, j | 0 <= i < j < |ys| ensures ys[i] != ys[j] {
          assert ys[j] == ys[1..][j - 1];
          if i > 0 {
            assert ys[i] == ys[1..][i - 1];
          }
        }
      } else {
        SubsequenceDistinct(ys, xs[1..]);
      }
    }
  }

  /** A row that occurs in a table of distinct rows occurs exactly once. */
  lemma {:induction false} DistinctCountOne<T>(xs: seq<T>, x: T)
    requires Distinct(xs)
    requires x in xs
    ensures multiset(xs)[x] == 1
  {
    assert xs == [xs[0]] + xs[1..];
    if xs[0] == x {
      assert x !in xs[1..];
    } else {
      DistinctCountOne(xs[1..], x);
    }
  }

  /** Filtering distributes over concatenation. */
  lemma {:induction false} FilterAppend<T(!new)>(xs: seq<T>, ys: seq<T>, keep: T -> bool)
    ensures Filter(xs + ys, keep) == Filter(xs, keep) + Filter(ys, keep)
  {
    if xs == [] {
      assert xs + ys == ys;
    } else {
      assert (xs + ys)[0] == xs[0];
      assert (xs + ys)[1..] == xs[1..] + ys;
      FilterAppend(xs[1..], ys, keep);
    }
  }

  /** A filter that rejects every element yields nothing. */
  lemma {:induction false} FilterNone<T(!new)>(xs: seq<T>, keep: T -> bool)
    requires forall x :: x in xs ==> !keep(x)
    ensures Filter(xs, keep) == []
  {
    if xs != [] {
      assert forall x :: x in xs[1..] ==> x in xs;
      FilterNone(xs[1..], keep);
    }
  }

  /** A filter that accepts every element yields the input. */
  lemma {:induction false} FilterAll<T(!new)>(xs: seq<T>, keep: T -> bool)
    requires forall x :: x in xs ==> keep(x)
    ensures Filter(xs, keep) == xs
  {
    if xs != [] {
      assert forall x :: x in xs[1..] ==> x in xs;
      FilterAll(xs[1..], keep);
      assert xs == [xs[0]] + xs[1..];
    }
  }

  /** Filtering by a weaker condition first does not change the result of a stronger one. */
  lemma {:induction false} FilterNested<T(!new)>(xs: seq<T>, weak: T -> bool, strong: T -> bool)
    requires forall x :: strong(x) ==> weak(x)
    ensures Filter(Filter(xs, weak), strong) == Filter(xs, strong)
  {
    if xs != [] {
      FilterNested(xs[1..], weak, strong);
    }
  }

  /** Two tables of distinct rows with no row in common concatenate to one. */
  lemma DistinctAppend<T>(xs: seq<T>, ys: seq<T>)
    requires Distinct(xs) && Distinct(ys)
    requires forall x :: x in xs ==> x !in ys
    ensures Distinct(xs + ys)
  {
    forall i, j | 0 <= i < j < |xs + ys|
      ensures (xs + ys)[i] != (xs + ys)[j]
    {
      if j >= |xs| && i < |xs| {
        assert (xs + ys)[i] in xs;
        assert (xs + ys)[j] in ys;
      }
    }
  }
}

=== FILE: shopping_list.dfy ===
/**
 The shopping-list download (api/views.py, `download_shopping_cart`): every
 ingredient line of every recipe in the caller's cart, grouped by
 (ingredient name, measurement unit), the amounts summed with SQL SUM
 semantics, rendered as a plain-text report.

 The database returns the groups in no particular order; this model emits
 them in order of first occurrence in the line table, and states the result
 as a set of groups with exact totals, which does not depend on that choice.
 */
module ShoppingList {
  import opened Common
  import opened Store
  import opened Membership

  /** A row of the joined query: the line's ingredient name and unit and its amount. */
  datatype Item = Item(name: string, unit: string, amount: Option<SmallUint>)

  /** A grouping key: (ingredient name, measurement unit). */
  type Key = (string, string)

  /** A row of the aggregate: one (name, unit) group and SUM(amount) over it. */
  datatype Group = Group(name: string, unit: string, total: Option<nat>)

  function ItemKey(it: Item): Key
  {
    (it.name, it.unit)
  }

  function GroupKey(g: Group): Key
  {
    (g.name, g.unit)
  }

  // ----- SQL SUM -----

  /** One step of SUM: NULL amounts are skipped; the sum is NULL until a non-NULL amount is seen. */
  function AddAmount(acc: Option<nat>, a: Option<SmallUint>): Option<nat>
  {
    match (acc, a)
    case (None, None) => None
    case (None, Some(x)) => Some(x)
    case (Some(t), None) => Some(t)
    case (Some(t), Some(x)) => Some(t + x)
  }

  /** The arithmetic sum of the non-NULL amounts. */
  function NonNullTotal(xs: seq<Option<SmallUint>>): nat
  {
    if xs == [] then 0
    else NonNullTotal(xs[..|xs| - 1]) + (if xs[|xs| - 1].Some? then xs[|xs| - 1].value else 0)
  }

  /**
   SUM over a column: NULL when every amount is NULL (or there is none),
   otherwise the sum of the non-NULL amounts.
   */
  function SqlSum(xs: seq<Option<SmallUint>>): (r: Option<nat>)
    ensures r.None? <==> forall i :: 0 <= i < |xs| ==> xs[i].None?
    ensures r.Some? ==> r.value == NonNullTotal(xs)
  {
    if xs == [] then None
    else
      var prefix := xs[..|xs| - 1];
      NullTotalZero(prefix);
      AddAmount(SqlSum(prefix), xs[|xs| - 1])
  }

  /** Amounts that are all NULL add up to zero. */
  lemma {:induction false} NullTotalZero(xs: seq<Option<SmallUint>>)
    ensures (forall i :: 0 <= i < |xs| ==> xs[i].None?) ==> NonNullTotal(xs) == 0
  {
    if xs != [] {
      NullTotalZero(xs[..|xs| - 1]);
    }
  }

  /** The amounts of the items of group `k`, in order. */
  function AmountsFor(items: seq<Item>, k: Key): seq<Option<SmallUint>>
  {
    if items == [] then []
    else
      var last := items[|items| - 1];
      AmountsFor(items[..|items| - 1], k) + (if ItemKey(last) == k then [last.amount] else [])
  }

  /** The keys that occur among the items. */
  function ItemKeys(items: seq<Item>): set<Key>
  {
    set it | it in items :: ItemKey(it)
  }

  // ----- grouping -----

  predicate KeysDistinct(groups: seq<Group>)
  {
    forall i, j :: 0 <= i < j < |groups| ==> GroupKey(groups[i]) != GroupKey(groups[j])
  }

  function GroupKeys(groups: seq<Group>): set<Key>
  {
    set g | g in groups :: GroupKey(g)
  }

  /** The total of group `k`, or None when there is no such group. */
  function TotalOf(groups: seq<Group>, k: Key): Option<nat>
  {
    if groups == [] then None
    else if GroupKey(groups[0]) == k then groups[0].total
    else TotalOf(groups[1..], k)
  }

  /** In a list with distinct keys, TotalOf finds the total of the one group with that key. */
  lemma {:induction false} TotalOfMember(groups: seq<Group>, g: Group)
    requires KeysDistinct(groups)
    requires g in groups
    ensures TotalOf(groups, GroupKey(g)) == g.total
  {
    var j :| 0 <= j < |groups| && groups[j] == g;
    if j > 0 {
      assert GroupKey(groups[0]) != GroupKey(g);
      assert groups[1..][j - 1] == g;
      TotalOfMember(groups[1..], g);
    }
  }

  /** How the keys, their distinctness and the totals of a list follow from its head and tail. */
  lemma ConsFacts(h: Group, tail: seq<Group>)
    ensures GroupKeys([h] + tail) == {GroupKey(h)} + GroupKeys(tail)
    ensures KeysDistinct([h] + tail) <==> KeysDistinct(tail) && GroupKey(h) !in GroupKeys(tail)
    ensures forall k :: TotalOf([h] + tail, k) == if GroupKey(h) == k then h.total else TotalOf(tail, k)
  {
    var xs := [h] + tail;
    assert xs[1..] == tail;
    assert forall g :: g in xs <==> g == h || g in tail;
    if KeysDistinct(xs) {
      forall g | g in tail
        ensures GroupKey(g) != GroupKey(h)
      {
        var j :| 0 <= j < |tail| && tail[j] == g;
        assert xs[0] == h && xs[j + 1] == g;
      }
    }
    if KeysDistinct(tail) && GroupKey(h) !in GroupKeys(tail) {
      forall i, j | 0 <= i < j < |xs|
        ensures GroupKey(xs[i]) != GroupKey(xs[j])
      {
        if i > 0 {
          assert GroupKey(xs[i]) == GroupKey(tail[i - 1]);
        } else {
          assert xs[j] in tail;
        }
      }
    }
  }

  /** Adds one item to the group of its key, creating the group at the end when it is new. */
  function Upsert(groups: seq<Group>, it: Item): (r: seq<Group>)
    requires KeysDistinct(groups)
    ensures KeysDistinct(r)
    ensures GroupKeys(r) == GroupKeys(groups) + {ItemKey(it)}
    ensures TotalOf(r, ItemKey(it)) == AddAmount(TotalOf(groups, ItemKey(it)), it.amount)
    ensures forall k :: k != ItemKey(it) ==> TotalOf(r, k) == TotalOf(groups, k)
  {
    if groups == [] then
      var g := Group(it.name, it.unit, AddAmount(None, it.amount));
      ConsFacts(g, []);
      assert [g] + [] == [g];
      [g]
    else
      var head, tail := groups[0], groups[1..];
      assert groups == [head] + tail;
      ConsFacts(head, tail);
      if GroupKey(head) == ItemKey(it) then
        var h := head.(total := AddAmount(head.total, it.amount));
        ConsFacts(h, tail);
        [h] + tail
      else
        var rest := Upsert(tail, it);
        ConsFacts(head, rest);
        [head] + rest
  }

  /**
   GROUP BY (name, unit) with SUM(amount): one group per distinct key of
   the items, and each group's total is the SQL sum of exactly the amounts
   of that key.
   */
  function Aggregate(items: seq<Item>): (groups: seq<Group>)
    ensures KeysDistinct(groups)
    ensures GroupKeys(groups) == ItemKeys(items)
    ensures forall k :: TotalOf(groups, k) == SqlSum(AmountsFor(items, k))
  {
    if items == [] then []
    else
      var before := Aggregate(items[..|items| - 1]);
      AggregateStepKeys(items, before);
      AggregateStepTotals(items, before);
      Upsert(before, items[|items| - 1])
  }

  /** SUM over one more amount is one more step of SUM. */
  lemma SqlSumSnoc(xs: seq<Option<SmallUint>>, a: Option<SmallUint>)
    ensures SqlSum(xs + [a]) == AddAmount(SqlSum(xs), a)
  {
    assert (xs + [a])[..|xs|] == xs;
  }

  /** The keys of the items are the keys of all but the last, and the last one's. */
  lemma AggregateStepKeys(items: seq<Item>, before: seq<Group>)
    requires items != []
    requires KeysDistinct(before)
    requires GroupKeys(before) == ItemKeys(items[..|items| - 1])
    ensures GroupKeys(Upsert(before, items[|items| - 1])) == ItemKeys(items)
  {
    var prefix, last := items[..|items| - 1], items[|items| - 1];
    assert items == prefix + [last];
    assert forall it :: it in items <==> it in prefix || it == last;
  }

  /** Upserting the last item into the groups of the other items gives every key its SUM. */
  lemma AggregateStepTotals(items: seq<Item>, before: seq<Group>)
    requires items != []
    requires KeysDistinct(before)
    requires forall k :: TotalOf(before, k) == SqlSum(AmountsFor(items[..|items| - 1], k))
    ensures forall k :: TotalOf(Upsert(before, items[|items| - 1]), k) == SqlSum(AmountsFor(items, k))
  {
    forall k
      ensures TotalOf(Upsert(before, items[|items| - 1]), k) == SqlSum(AmountsFor(items, k))
    {
      StepTotalAt(items, before, k);
    }
  }

  /** The step of AggregateStepTotals for one key. */
  lemma StepTotalAt(items: seq<Item>, before: seq<Group>, k: Key)
    requires items != []
    requires KeysDistinct(before)
    requires TotalOf(before, k) == SqlSum(AmountsFor(items[..|items| - 1], k))
    ensures TotalOf(Upsert(before, items[|items| - 1]), k) == SqlSum(AmountsFor(items, k))
  {
    var prefix, last := items[..|items| - 1], items[|items| - 1];
    if k == ItemKey(last) {
      assert AmountsFor(items, k) == AmountsFor(prefix, k) + [last.amount];
      SqlSumSnoc(AmountsFor(prefix, k), last.amount);
    } else {
      assert AmountsFor(items, k) == AmountsFor(prefix, k);
    }
  }

  // ----- the query over the store -----

  /** Does line `l` belong to a recipe in the user's cart, with an existing ingredient (the inner join)? */
  predicate InCart(s: Store, user: UserId, l: LineRow)
  {
    Pair(user, l.recipe) in s.carts && l.ingredient in s.ingredients.rows
  }

  function LineKey(s: Store, l: LineRow): Key
    requires l.ingredient in s.ingredients.rows
  {
    (s.ingredients.rows[l.ingredient].name, s.ingredients.rows[l.ingredient].unit)
  }

  /** The joined items of the given lines that belong to the user's cart, in table order. */
  function JoinedItems(s: Store, user: UserId, lines: seq<LineRow>): seq<Item>
  {
    if lines == [] then []
    else
      var l := lines[|lines| - 1];
      JoinedItems(s, user, lines[..|lines| - 1])
      + (if InCart(s, user, l)
         then [Item(s.ingredients.rows[l.ingredient].name, s.ingredients.rows[l.ingredient].unit, l.amount)]
         else [])
  }

  /**
   The reference: the amounts of the cart's lines of group `k`, read
   directly off the line table.
   */
  function CartAmounts(s: Store, user: UserId, lines: seq<LineRow>, k: Key): seq<Option<SmallUint>>
  {
    if lines == [] then []
    else
      var l := lines[|lines| - 1];
      CartAmounts(s, user, lines[..|lines| - 1], k)
      + (if InCart(s, user, l) && LineKey(s, l) == k then [l.amount] else [])
  }

  /** The groups the cart's lines fall into. */
  function CartKeys(s: Store, user: UserId): set<Key>
  {
    set l | l in s.lines && InCart(s, user, l) :: LineKey(s, l)
  }

  lemma {:induction false} JoinedItemsAmounts(s: Store, user: UserId, lines: seq<LineRow>, k: Key)
    ensures AmountsFor(JoinedItems(s, user, lines), k) == CartAmounts(s, user, lines, k)
  {
    if lines != [] {
      var prefix := lines[..|lines| - 1];
      var l := lines[|lines| - 1];
      JoinedItemsAmounts(s, user, prefix, k);
      var before := JoinedItems(s, user, prefix);
      if InCart(s, user, l) {
        var it := Item(s.ingredients.rows[l.ingredient].name, s.ingredients.rows[l.ingredient].unit, l.amount);
        assert JoinedItems(s, user, lines) == before + [it];
        assert (before + [it])[..|before|] == before;
      } else {
        assert JoinedItems(s, user, lines) == before;
      }
    }
  }

  lemma {:induction false} JoinedItemsKeys(s: Store, user: UserId, lines: seq<LineRow>)
    ensures ItemKeys(JoinedItems(s, user, lines)) == set l | l in lines && InCart(s, user, l) :: LineKey(s, l)
  {
    if lines != [] {
      var prefix := lines[..|lines| - 1];
      var l := lines[|lines| - 1];
      JoinedItemsKeys(s, user, prefix);
      assert lines == prefix + [l];
      var before := JoinedItems(s, user, prefix);
      if InCart(s, user, l) {
        var it := Item(s.ingredients.rows[l.ingredient].name, s.ingredients.rows[l.ingredient].unit, l.amount);
        assert ItemKeys(before + [it]) == ItemKeys(before) + {ItemKey(it)};
      } else {
        assert JoinedItems(s, user, lines) == before;
      }
    }
  }

  /** The aggregated shopping list of a user. */
  function ShoppingGroups(s: Store, user: UserId): seq<Group>
  {
    Aggregate(JoinedItems(s, user, s.lines))
  }

  /**
   The shopping list holds one group per distinct (name, unit) among the
   lines of the recipes in the user's cart, and each group's total is the
   SQL sum of exactly those lines' amounts.
   */
  lemma ShoppingListContents(s: Store, user: UserId)
    ensures KeysDistinct(ShoppingGroups(s, user))
    ensures GroupKeys(ShoppingGroups(s, user)) == CartKeys(s, user)
    ensures forall g :: g in ShoppingGroups(s, user) ==> g.total == SqlSum(CartAmounts(s, user, s.lines, GroupKey(g)))
  {
    var groups := ShoppingGroups(s, user);
    JoinedItemsKeys(s, user, s.lines);
    forall g | g in groups
      ensures g.total == SqlSum(CartAmounts(s, user, s.lines, GroupKey(g)))
    {
      TotalOfMember(groups, g);
      JoinedItemsAmounts(s, user, s.lines, GroupKey(g));
    }
  }

  /** A non-empty list has the key of its first group. */
  lemma FirstKeyListed(groups: seq<Group>)
    ensures groups != [] ==> GroupKey(groups[0]) in GroupKeys(groups)
  {
  }

  /** An empty cart gives no group at all. */
  lemma EmptyCartNoGroups(s: Store, user: UserId)
    requires forall p :: p in s.carts ==> p.user != user
    ensures ShoppingGroups(s, user) == []
  {
    JoinedItemsKeys(s, user, s.lines);
    assert forall l :: l in s.lines ==> !InCart(s, user, l);
    FirstKeyListed(ShoppingGroups(s, user));
  }

  // ----- the text report -----

  const HEADER: string := "Список покупок:\n"

  function DigitChar(d: nat): char
    requires d < 10
  {
    "0123456789"[d]
  }

  /** `str(n)` of a non-negative integer: decimal digits, no leading zero. */
  function Decimal(n: nat): (r: string)
    ensures 1 <= |r| && forall i :: 0 <= i < |r| ==> '0' <= r[i] <= '9'
    ensures |r| > 1 ==> r[0] != '0'
  {
    if n < 10 then [DigitChar(n)] else Decimal(n / 10) + [DigitChar(n % 10)]
  }

  /** The value a string of decimal digits denotes. */
  function DecimalValue(r: string): nat
    requires forall i :: 0 <= i < |r| ==> '0' <= r[i] <= '9'
  {
    if r == [] then 0 else DecimalValue(r[..|r| - 1]) * 10 + (r[|r| - 1] as int - '0' as int)
  }

  /** The rendered total reads back as the total. */
  lemma {:induction false} DecimalRoundTrip(n: nat)
    ensures DecimalValue(Decimal(n)) == n
  {
    if n >= 10 {
      DecimalRoundTrip(n / 10);
      var r := Decimal(n);
      assert r[..|r| - 1] == Decimal(n / 10);
    }
  }

  /** How the f-string renders a total: the digits, or `None` for a NULL sum. */
  function AmountText(total: Option<nat>): string
  {
    match total
    case None => "None"
    case Some(n) => Decimal(n)
  }

  /** The report line of one group. */
  function LineText(g: Group): string
  {
    "- " + g.name + " в количестве: " + AmountText(g.total) + " " + g.unit + ",\n"
  }

  /** The item lines of the report, in group order. */
  function Body(groups: seq<Group>): string
  {
    if groups == [] then "" else Body(groups[..|groups| - 1]) + LineText(groups[|groups| - 1])
  }

  /** The report: the header line and one line per group. */
  function Report(groups: seq<Group>): (text: string)
    ensures |text| >= |HEADER| && text[..|HEADER|] == HEADER
    ensures text == HEADER <==> groups == []
  {
    BodyEmpty(groups);
    HEADER + Body(groups)
  }

  lemma {:induction false} BodyEmpty(groups: seq<Group>)
    ensures Body(groups) == "" <==> groups == []
  {
    if groups != [] {
      assert |LineText(groups[|groups| - 1])| > 0;
    }
  }

  /** Each further group adds its own line at the end of the report. */
  lemma ReportSnoc(groups: seq<Group>, i: nat)
    requires i < |groups|
    ensures Report(groups[..i + 1]) == Report(groups[..i]) + LineText(groups[i])
  {
    assert groups[..i + 1][..i] == groups[..i];
    var body, line := Body(groups[..i]), LineText(groups[i]);
    assert HEADER + (body + line) == (HEADER + body) + line;
  }

  /** Why the download cannot produce a report: the ORM refuses an anonymous user as a lookup value. */
  datatype DownloadFault = AnonymousLookup

  /**
   The download: for an authenticated caller, the report of their cart's
   groups, built line by line as the view's loop does; an anonymous caller
   (the view admits one) makes the query raise.
   */
  method DownloadShoppingCart(s: Store, caller: Caller) returns (r: Result<string, DownloadFault>)
    ensures caller == Anonymous ==> r == Err(AnonymousLookup)
    ensures caller.Member? ==> r == Ok(Report(ShoppingGroups(s, caller.id)))
  {
    if caller == Anonymous {
      return Err(AnonymousLookup);
    }
    var text := RenderReport(ShoppingGroups(s, caller.id));
    return Ok(text);
  }

  /** The view's loop: the header, then one line per group in order. */
  method RenderReport(groups: seq<Group>) returns (text: string)
    ensures text == Report(groups)
  {
    text := HEADER;
    var i := 0;
    assert groups[..0] == [];
    while i < |groups|
      invariant 0 <= i <= |groups|
      invariant text == Report(groups[..i])
    {
      ReportSnoc(groups, i);
      text := text + LineText(groups[i]);
      i := i + 1;
    }
    assert groups[..|groups|] == groups;
  }

  /** A user with an empty cart downloads the header alone. */
  lemma EmptyCartHeaderOnly(s: Store, user: UserId)
    requires forall p :: p in s.carts ==> p.user != user
    ensures Report(ShoppingGroups(s, user)) == HEADER
  {
    EmptyCartNoGroups(s, user);
  }
}

=== FILE: store.dfy ===
/**
 The relational schema of the recipe backend (recipes/models.py and
 users/models.py) as one immutable store value.

 Entity tables (users, ingredients, tags, recipes) map a serial primary key
 to a row; relation tables (ingredient lines, favorites, shopping-cart rows,
 subscriptions) are sequences of rows in primary-key order. `Valid` collects
 the constraints the database enforces: uniqueness and foreign keys. The
 cascading deletes keep it.
 */
module Store {
  import opened Common

  type UserId = nat
  type IngredientId = nat
  type TagId = nat
  type RecipeId = nat

  /** Largest value of a PositiveSmallIntegerField column. */
  const SMALL_UINT_MAX: int := 32767

  /** The range of a PositiveSmallIntegerField column (amount, cooking_time). */
  type SmallUint = x: int | 0 <= x <= SMALL_UINT_MAX

  /** A table with a serial primary key: rows by id, and the next id the sequence hands out. */
  datatype Table<T> = Table(rows: map<nat, T>, next: nat) {

    /** Every existing key was handed out by the serial counter. */
    predicate Bounded()
    {
      forall k :: k in rows ==> k < next
    }

    /** Inserts a row under a fresh key and returns the key. */
    function Insert(v: T): (r: (Table<T>, nat))
      ensures Bounded() ==> r.1 !in rows && r.0.Bounded()
      ensures r.1 in r.0.rows && r.0.rows[r.1] == v
      ensures Bounded() ==> forall k :: k in rows ==> k in r.0.rows && r.0.rows[k] == rows[k]
      ensures r.0.rows.Keys == rows.Keys + {r.1}
      ensures forall k :: k in rows && k != r.1 ==> r.0.rows[k] == rows[k]
    {
      (Table(rows[next := v], next + 1), next)
    }

    /** Deletes the rows whose keys are in `gone`; the counter is not rewound. */
    function Without(gone: set<nat>): (t: Table<T>)
      ensures t.rows.Keys == rows.Keys - gone
      ensures forall k :: k in t.rows ==> t.rows[k] == rows[k]
      ensures Bounded() ==> t.Bounded()
    {
      Table(rows - gone, next)
    }
  }

  datatype User = User(username: string, email: string, firstName: string, lastName: string)

  datatype Ingredient = Ingredient(name: string, unit: string)

  datatype Tag = Tag(name: string, colour: string, slug: string)

  /** A recipe row together with its tag assignment (the implicit many-to-many table). */
  datatype Recipe = Recipe(
    author: UserId,
    name: string,
    text: string,
    cookingTime: SmallUint,
    pubDate: int,
    tags: set<TagId>)

  /** A RecipeIngredientAmount row; `amount` is a nullable column. */
  datatype LineRow = LineRow(recipe: RecipeId, ingredient: IngredientId, amount: Option<SmallUint>)

  /** A Favorite or ShoppingCart row. */
  datatype Pair = Pair(user: UserId, recipe: RecipeId)

  /** A Subscription row: `user` follows `author`. */
  datatype Follow = Follow(user: UserId, author: UserId)

  datatype Store = Store(
    users: Table<User>,
    ingredients: Table<Ingredient>,
    tags: Table<Tag>,
    recipes: Table<Recipe>,
    lines: seq<LineRow>,
    favorites: seq<Pair>,
    carts: seq<Pair>,
    follows: seq<Follow>)

  /** The two per-user recipe lists (Favorite and ShoppingCart), which share one row shape. */
  datatype ListKind = FavoriteList | CartList

  /** The rows of one of the two lists. */
  function Rows(s: Store, kind: ListKind): seq<Pair>
  {
    match kind
    case FavoriteList => s.favorites
    case CartList => s.carts
  }

  /** The store with the rows of one list replaced and every other table unchanged. */
  function WithRows(s: Store, kind: ListKind, rows: seq<Pair>): (t: Store)
    ensures Rows(t, kind) == rows
    ensures forall other :: other != kind ==> Rows(t, other) == Rows(s, other)
    ensures t.(favorites := s.favorites, carts := s.carts) == s
  {
    match kind
    case FavoriteList => s.(favorites := rows)
    case CartList => s.(carts := rows)
  }

  /** Username and email are each unique among users. */
  predicate UniqueUsers(users: map<UserId, User>)
  {
    forall a, b :: a in users && b in users && a != b ==>
      users[a].username != users[b].username && users[a].email != users[b].email
  }

  /** Tag name, colour and slug are each unique among tags. */
  predicate UniqueTags(tags: map<TagId, Tag>)
  {
    forall a, b :: a in tags && b in tags && a != b ==>
      tags[a].name != tags[b].name && tags[a].colour != tags[b].colour && tags[a].slug != tags[b].slug
  }

  /** At most one ingredient line per (recipe, ingredient). */
  predicate LinesKeyed(lines: seq<LineRow>)
  {
    forall a, b :: a in lines && b in lines && a.recipe == b.recipe && a.ingredient == b.ingredient ==> a == b
  }

  predicate RecipesWellFormed(s: Store)
  {
    forall r :: r in s.recipes.rows ==>
      s.recipes.rows[r].author in s.users.rows && s.recipes.rows[r].tags <= s.tags.rows.Keys
  }

  predicate LinesWellFormed(s: Store)
  {
    && Distinct(s.lines)
    && LinesKeyed(s.lines)
    && forall l :: l in s.lines ==> l.recipe in s.recipes.rows && l.ingredient in s.ingredients.rows
  }

  /** A Favorite or ShoppingCart table: one row per (user, recipe), both keys existing. */
  predicate PairsWellFormed(s: Store, rows: seq<Pair>)
  {
    && Distinct(rows)
    && forall p :: p in rows ==> p.user in s.users.rows && p.recipe in s.recipes.rows
  }

  /** One Subscription per (user, author); user == author is not excluded here. */
  predicate FollowsWellFormed(s: Store)
  {
    && Distinct(s.follows)
    && forall f :: f in s.follows ==> f.user in s.users.rows && f.author in s.users.rows
  }

  /** Every constraint the schema declares. */
  predicate Valid(s: Store)
  {
    && s.users.Bounded() && s.ingredients.Bounded() && s.tags.Bounded() && s.recipes.Bounded()
    && UniqueUsers(s.users.rows)
    && UniqueTags(s.tags.rows)
    && RecipesWellFormed(s)
    && LinesWellFormed(s)
    && PairsWellFormed(s, s.favorites)
    && PairsWellFormed(s, s.carts)
    && FollowsWellFormed(s)
  }

  /** The storage-level uniqueness violations (an IntegrityError). */
  datatype Violation = UsernameTaken | EmailTaken | TagNameTaken | TagColourTaken | TagSlugTaken

  /**
   Inserts a user; the unique username and email columns refuse a clash,
   the username checked first.
   */
  function InsertUser(s: Store, u: User): (r: Result<(Store, UserId), Violation>)
    ensures r.Ok? <==> forall k :: k in s.users.rows ==>
                         s.users.rows[k].username != u.username && s.users.rows[k].email != u.email
    ensures r.Err? && r.error == UsernameTaken <==>
              exists k :: k in s.users.rows && s.users.rows[k].username == u.username
    ensures r.Err? && r.error == EmailTaken <==>
              && (exists k :: k in s.users.rows && s.users.rows[k].email == u.email)
              && !(exists k :: k in s.users.rows && s.users.rows[k].username == u.username)
    ensures r.Err? ==> r.error == UsernameTaken || r.error == EmailTaken
    ensures r.Ok? ==> var (t, id) := r.value;
              && t == s.(users := t.users)
              && id in t.users.rows && t.users.rows[id] == u
              && t.users.rows.Keys == s.users.rows.Keys + {id}
              && (Valid(s) ==> id !in s.users.rows && Valid(t))
              && (Valid(s) ==> forall k :: k in s.users.rows ==> t.users.rows[k] == s.users.rows[k])
  {
    if exists k :: k in s.users.rows && s.users.rows[k].username == u.username then Err(UsernameTaken)
    else if exists k :: k in s.users.rows && s.users.rows[k].email == u.email then Err(EmailTaken)
    else
      var (users, id) := s.users.Insert(u);
      Ok((s.(users := users), id))
  }

  /**
   Inserts a tag; the unique name, colour and slug columns refuse a clash,
   checked in that order.
   */
  function InsertTag(s: Store, g: Tag): (r: Result<(Store, TagId), Violation>)
    ensures r.Ok? <==> forall k :: k in s.tags.rows ==>
                         s.tags.rows[k].name != g.name && s.tags.rows[k].colour != g.colour
                         && s.tags.rows[k].slug != g.slug
    ensures r.Err? && r.error == TagNameTaken <==>
              exists k :: k in s.tags.rows && s.tags.rows[k].name == g.name
    ensures r.Err? && r.error == TagColourTaken <==>
              && (exists k :: k in s.tags.rows && s.tags.rows[k].colour == g.colour)
              && !(exists k :: k in s.tags.rows && s.tags.rows[k].name == g.name)
    ensures r.Err? && r.error == TagSlugTaken <==>
              && (exists k :: k in s.tags.rows && s.tags.rows[k].slug == g.slug)
              && !(exists k :: k in s.tags.rows && s.tags.rows[k].name == g.name)
              && !(exists k :: k in s.tags.rows && s.tags.rows[k].colour == g.colour)
    ensures r.Err? ==> r.error == TagNameTaken || r.error == TagColourTaken || r.error == TagSlugTaken
    ensures r.Ok? ==> var (t, id) := r.value;
              && t == s.(tags := t.tags)
              && id in t.tags.rows && t.tags.rows[id] == g
              && t.tags.rows.Keys == s.tags.rows.Keys + {id}
              && (Valid(s) ==> id !in s.tags.rows && Valid(t))
              && (Valid(s) ==> forall k :: k in s.tags.rows ==> t.tags.rows[k] == s.tags.rows[k])
  {
    if exists k :: k in s.tags.rows && s.tags.rows[k].name == g.name then Err(TagNameTaken)
    else if exists k :: k in s.tags.rows && s.tags.rows[k].colour == g.colour then Err(TagColourTaken)
    else if exists k :: k in s.tags.rows && s.tags.rows[k].slug == g.slug then Err(TagSlugTaken)
    else
      var (tags, id) := s.tags.Insert(g);
      Ok((s.(tags := tags), id))
  }

  /** Deletes a set of recipes with their ON DELETE CASCADE dependants. */
  function DropRecipes(s: Store, gone: set<RecipeId>): (t: Store)
    ensures t.recipes.rows.Keys == s.recipes.rows.Keys - gone
    ensures forall r :: r in t.recipes.rows ==> t.recipes.rows[r] == s.recipes.rows[r]
    ensures forall l :: l in t.lines <==> l in s.lines && l.recipe !in gone
    ensures forall p :: p in t.favorites <==> p in s.favorites && p.recipe !in gone
    ensures forall p :: p in t.carts <==> p in s.carts && p.recipe !in gone
    ensures t.users == s.users && t.ingredients == s.ingredients && t.tags == s.tags
    ensures t.follows == s.follows
    ensures Valid(s) ==> Valid(t)
  {
    s.(recipes := s.recipes.Without(gone),
       lines := Filter(s.lines, (l: LineRow) => l.recipe !in gone),
       favorites := Filter(s.favorites, (p: Pair) => p.recipe !in gone),
       carts := Filter(s.carts, (p: Pair) => p.recipe !in gone))
  }

  /** Deleting a recipe removes its ingredient lines, favorites and cart rows, and nothing else. */
  function DeleteRecipe(s: Store, r: RecipeId): (t: Store)
    ensures t.recipes.rows.Keys == s.recipes.rows.Keys - {r}
    ensures forall x :: x in t.recipes.rows ==> t.recipes.rows[x] == s.recipes.rows[x]
    ensures forall l :: l in t.lines <==> l in s.lines && l.recipe != r
    ensures forall p :: p in t.favorites <==> p in s.favorites && p.recipe != r
    ensures forall p :: p in t.carts <==> p in s.carts && p.recipe != r
    ensures t.users == s.users && t.ingredients == s.ingredients && t.tags == s.tags && t.follows == s.follows
    ensures Valid(s) ==> Valid(t)
  {
    DropRecipes(s, {r})
  }

  /** The recipes a user has written. */
  function RecipesBy(s: Store, u: UserId): (rs: set<RecipeId>)
    ensures forall r :: r in rs <==> r in s.recipes.rows && s.recipes.rows[r].author == u
  {
    set r | r in s.recipes.rows && s.recipes.rows[r].author == u
  }

  /**
   Deleting a user cascades to their recipes (and through them to those
   recipes' lines, favorites and cart rows), to their own favorites and cart
   rows, and to every subscription where they are the subscriber or the author.
   */
  function DeleteUser(s: Store, u: UserId): (t: Store)
    ensures t.users.rows.Keys == s.users.rows.Keys - {u}
    ensures forall k :: k in t.users.rows ==> t.users.rows[k] == s.users.rows[k]
    ensures forall r :: r in t.recipes.rows <==> r in s.recipes.rows && s.recipes.rows[r].author != u
    ensures forall r :: r in t.recipes.rows ==> t.recipes.rows[r] == s.recipes.rows[r]
    ensures t.ingredients == s.ingredients && t.tags == s.tags
    ensures forall f :: f in t.follows <==> f in s.follows && f.user != u && f.author != u
    ensures forall p :: p in t.favorites <==>
              p in s.favorites && p.user != u && p.recipe !in RecipesBy(s, u)
    ensures forall p :: p in t.carts <==>
              p in s.carts && p.user != u && p.recipe !in RecipesBy(s, u)
    ensures forall l :: l in t.lines <==> l in s.lines && l.recipe !in RecipesBy(s, u)
    ensures Valid(s) ==> Valid(t)
  {
    var d := DropRecipes(s, RecipesBy(s, u));
    d.(users := d.users.Without({u}),
       favorites := Filter(d.favorites, (p: Pair) => p.user != u),
       carts := Filter(d.carts, (p: Pair) => p.user != u),
       follows := Filter(d.follows, (f: Follow) => f.user != u && f.author != u))
  }

  /** Deleting an ingredient removes the lines that use it. */
  function DeleteIngredient(s: Store, i: IngredientId): (t: Store)
    ensures t.ingredients.rows.Keys == s.ingredients.rows.Keys - {i}
    ensures forall k :: k in t.ingredients.rows ==> t.ingredients.rows[k] == s.ingredients.rows[k]
    ensures forall l :: l in t.lines <==> l in s.lines && l.ingredient != i
    ensures t == s.(ingredients := t.ingredients, lines := t.lines)
    ensures Valid(s) ==> Valid(t)
  {
    s.(ingredients := s.ingredients.Without({i}),
       lines := Filter(s.lines, (l: LineRow) => l.ingredient != i))
  }

  /** Deleting a tag removes its assignments to recipes. */
  function DeleteTag(s: Store, g: TagId): (t: Store)
    ensures t.tags.rows.Keys == s.tags.rows.Keys - {g}
    ensures forall k :: k in t.tags.rows ==> t.tags.rows[k] == s.tags.rows[k]
    ensures t.recipes.rows.Keys == s.recipes.rows.Keys
    ensures forall r :: r in t.recipes.rows ==>
              t.recipes.rows[r].tags == s.recipes.rows[r].tags - {g}
              && t.recipes.rows[r] == s.recipes.rows[r].(tags := t.recipes.rows[r].tags)
    ensures t == s.(tags := t.tags, recipes := t.recipes)
    ensures Valid(s) ==> Valid(t)
  {
    var rows := map r | r in s.recipes.rows :: s.recipes.rows[r].(tags := s.recipes.rows[r].tags - {g});
    s.(tags := s.tags.Without({g}), recipes := Table(rows, s.recipes.next))
  }
}

=== FILE: validators.dfy ===
/**
 The pure validators of the backend: the username check
 (users/validators.py), the tag colour pattern (recipes/models.py) and the
 "not every inline row deleted" formset check (recipes/validate_delete.py).
 */
module Validators {
  import opened Common

  // ----- username -----

  /**
   The outcome of validating a username: accepted, refused because the name
   is reserved, or refused because of the listed forbidden characters.
   */
  datatype UsernameVerdict = Accepted | Reserved(name: string) | ForbiddenSymbols(symbols: set<char>)

  /**
   `set(''.join(matches))`: the distinct characters of all the matches the
   forbidden-character pattern found.
   */
  function MatchedSymbols(matches: seq<string>): (r: set<char>)
    ensures forall c :: c in r <==> exists i :: 0 <= i < |matches| && c in matches[i]
  {
    if matches == [] then {}
    else
      var rest := MatchedSymbols(matches[1..]);
      assert forall i :: 1 <= i < |matches| ==> matches[i] == matches[1..][i - 1];
      (set c | c in matches[0]) + rest
  }

  /**
   Username validation. `matches` is what `re.findall` returns for the
   configured pattern on `username` (the regex engine is not modelled). The
   reserved-name test comes first; then any match at all refuses the name,
   reporting the characters the matches cover.
   */
  function ValidateUsername(username: string, reserved: set<string>, matches: seq<string>): (v: UsernameVerdict)
    ensures username in reserved ==> v == Reserved(username)
    ensures v == Accepted <==> username !in reserved && matches == []
    ensures v.ForbiddenSymbols? ==>
              && username !in reserved && matches != []
              && forall c :: c in v.symbols <==> exists i :: 0 <= i < |matches| && c in matches[i]
  {
    if username in reserved then Reserved(username)
    else if matches != [] then ForbiddenSymbols(MatchedSymbols(matches))
    else Accepted
  }

  /**
   When every match `findall` returns is empty (a pattern such as `x*` on a
   name without `x`), the name is still refused, and the report lists no
   character.
   */
  lemma EmptyMatchRefusesSilently(username: string, reserved: set<string>, matches: seq<string>)
    requires username !in reserved
    requires matches != [] && forall i :: 0 <= i < |matches| ==> matches[i] == ""
    ensures ValidateUsername(username, reserved, matches) == ForbiddenSymbols({})
  {
    var v := ValidateUsername(username, reserved, matches);
    assert forall c :: c !in v.symbols by {
      forall c ensures c !in v.symbols {
        assert forall i :: 0 <= i < |matches| ==> c !in matches[i];
      }
    }
  }

  /**
   What `findall` returns for a one-character class such as `[^\w.@+-]`:
   each character of `username` the class matches, in order, as a
   one-letter string.
   */
  function CharClassMatches(username: string, invalid: char -> bool): (ms: seq<string>)
    ensures forall i :: 0 <= i < |ms| ==> |ms[i]| == 1 && ms[i][0] in username && invalid(ms[i][0])
    ensures forall c :: c in username && invalid(c) ==> [c] in ms
  {
    if username == [] then []
    else
      var rest := CharClassMatches(username[1..], invalid);
      assert forall c :: c in username <==> c == username[0] || c in username[1..];
      if invalid(username[0]) then [[username[0]]] + rest else rest
  }

  /** The distinct characters of `username` that a one-character class matches. */
  function WrongSymbols(username: string, invalid: char -> bool): (r: set<char>)
    ensures forall c :: c in r <==> c in username && invalid(c)
  {
    if username == [] then {}
    else
      var rest := WrongSymbols(username[1..], invalid);
      assert forall c :: c in username <==> c == username[0] || c in username[1..];
      if invalid(username[0]) then {username[0]} + rest else rest
  }

  /**
   With a one-character-class pattern, a name that is not reserved is
   accepted exactly when no character is in the class, and otherwise the
   report lists exactly the offending characters, each once.
   */
  lemma CharClassVerdict(username: string, reserved: set<string>, invalid: char -> bool)
    requires username !in reserved
    ensures var v := ValidateUsername(username, reserved, CharClassMatches(username, invalid));
            && (v == Accepted <==> forall i :: 0 <= i < |username| ==> !invalid(username[i]))
            && (v != Accepted ==> v == ForbiddenSymbols(WrongSymbols(username, invalid)))
  {
    CharClassNoMatch(username, invalid);
    CharClassSymbols(username, invalid);
  }

  /** The class matches nothing exactly when no character of the name is in it. */
  lemma CharClassNoMatch(username: string, invalid: char -> bool)
    ensures CharClassMatches(username, invalid) == [] <==> forall i :: 0 <= i < |username| ==> !invalid(username[i])
  {
    var ms := CharClassMatches(username, invalid);
    if ms != [] {
      assert ms[0][0] in username;
    } else {
      assert forall c :: c in username ==> !invalid(c);
    }
  }

  /** The characters the one-letter matches cover are exactly the offending ones. */
  lemma CharClassSymbols(username: string, invalid: char -> bool)
    ensures MatchedSymbols(CharClassMatches(username, invalid)) == WrongSymbols(username, invalid)
  {
    var matched := MatchedSymbols(CharClassMatches(username, invalid));
    var wrong := WrongSymbols(username, invalid);
    forall c ensures c in matched <==> c in wrong {
      if c in matched {
        MatchedCharIsOffending(username, invalid, c);
      }
      if c in wrong {
        OffendingCharIsMatched(username, invalid, c);
      }
    }
  }

  lemma MatchedCharIsOffending(username: string, invalid: char -> bool, c: char)
    requires c in MatchedSymbols(CharClassMatches(username, invalid))
    ensures c in username && invalid(c)
  {
    var ms := CharClassMatches(username, invalid);
    var i :| 0 <= i < |ms| && c in ms[i];
    assert ms[i] == [ms[i][0]];
  }

  lemma OffendingCharIsMatched(username: string, invalid: char -> bool, c: char)
    requires c in username && invalid(c)
    ensures c in MatchedSymbols(CharClassMatches(username, invalid))
  {
    var ms := CharClassMatches(username, invalid);
    var i :| 0 <= i < |ms| && ms[i] == [c];
    assert c in ms[i];
  }

  // ----- tag colour -----

  predicate IsHexDigit(c: char)
  {
    '0' <= c <= '9' || 'a' <= c <= 'f' || 'A' <= c <= 'F'
  }

  /** The intended colour format: '#' and then exactly three or exactly six hex digits, either case. */
  predicate HexColour(s: string)
  {
    && (|s| == 4 || |s| == 7)
    && s[0] == '#'
    && forall i :: 1 <= i < |s| ==> IsHexDigit(s[i])
  }

  /** `s[i..i+n]` exists and consists of hex digits (one `[A-Fa-f0-9]{n}` step). */
  function HexRun(s: string, i: nat, n: nat): (m: bool)
    ensures m <==> i + n <= |s| && forall k :: i <= k < i + n ==> IsHexDigit(s[k])
    decreases n
  {
    if n == 0 then i <= |s|
    else i < |s| && IsHexDigit(s[i]) && HexRun(s, i + 1, n - 1)
  }

  /** Python's `$` without MULTILINE: the end of the string, or just before a final newline. */
  predicate EndAnchor(s: string, i: nat)
  {
    i == |s| || (i == |s| - 1 && s[i] == '\n')
  }

  /**
   The colour pattern `^#([A-Fa-f0-9]{6}|[A-Fa-f0-9]{3})$` as the regex
   engine runs it: '#', then the six-digit branch, else the three-digit
   branch, each followed by `$`. Because `$` also matches before a final
   newline, a colour with one trailing newline is accepted too.
   */
  function ColourPatternMatches(s: string): (m: bool)
    ensures m <==> HexColour(s) || (|s| > 0 && s[|s| - 1] == '\n' && HexColour(s[..|s| - 1]))
  {
    && |s| >= 1
    && s[0] == '#'
    && ((HexRun(s, 1, 6) && EndAnchor(s, 7)) || (HexRun(s, 1, 3) && EndAnchor(s, 4)))
  }

  /** The colour column's validators: max_length 7, then the pattern. */
  function ValidTagColour(s: string): (ok: bool)
    ensures ok <==> HexColour(s) || (|s| == 5 && s[4] == '\n' && HexColour(s[..4]))
  {
    |s| <= 7 && ColourPatternMatches(s)
  }

  /** ASCII lower-casing; every other character is left alone. */
  function Lower(c: char): char
  {
    if 'A' <= c <= 'Z' then (c as int + 32) as char else c
  }

  /** `s` and `t` differ at most in the case of their letters. */
  predicate SameUpToCase(s: string, t: string)
  {
    |s| == |t| && forall i :: 0 <= i < |s| ==> Lower(s[i]) == Lower(t[i])
  }

  /** Characters equal up to case agree on being a hex digit, '#' or a newline. */
  lemma LowerKeepsClass(c: char, d: char)
    requires Lower(c) == Lower(d)
    ensures IsHexDigit(c) <==> IsHexDigit(d)
    ensures c == '#' <==> d == '#'
    ensures c == '\n' <==> d == '\n'
  {
  }

  lemma HexColourUpToCase(s: string, t: string)
    requires SameUpToCase(s, t)
    ensures HexColour(s) <==> HexColour(t)
  {
    forall i | 0 <= i < |s|
      ensures (IsHexDigit(s[i]) <==> IsHexDigit(t[i])) && (s[i] == '#' <==> t[i] == '#')
    {
      LowerKeepsClass(s[i], t[i]);
    }
  }

  /**
   The pattern takes hex letters in either case, so the verdict on a colour
   does not depend on the case of its letters.
   */
  lemma CaseInsensitiveColour(s: string, t: string)
    requires SameUpToCase(s, t)
    ensures ValidTagColour(s) <==> ValidTagColour(t)
  {
    HexColourUpToCase(s, t);
    if |s| == 5 {
      LowerKeepsClass(s[4], t[4]);
      assert SameUpToCase(s[..4], t[..4]);
      HexColourUpToCase(s[..4], t[..4]);
    }
  }

  /** Upper or lower case hex letters are both accepted; a wrong length, no '#' or a non-hex digit is not. */
  lemma ColourExamples()
    ensures ValidTagColour("#A1b") && ValidTagColour("#a1B2c3") && ValidTagColour("#FFFFFF")
    ensures !ValidTagColour("#ab") && !ValidTagColour("#abcd") && !ValidTagColour("abc") && !ValidTagColour("#abg")
  {
    assert HexColour("#A1b");
    assert HexColour("#a1B2c3");
    assert HexColour("#FFFFFF");
    assert !IsHexDigit('g');
  }

  /** The only non-intended strings the validator lets through end in one newline, e.g. "#fff\n". */
  lemma TrailingNewlineColour()
    ensures ValidTagColour("#fff\n") && !HexColour("#fff\n")
    ensures !ValidTagColour("#ffffff\n")
  {
    assert "#fff\n"[..4] == "#fff";
    assert HexColour("#fff");
  }

  // ----- formset clean -----

  /**
   An inline form of the admin formset: one that never produced cleaned
   data, or one whose cleaned data holds the DELETE flag (None when the key
   is absent).
   */
  datatype InlineForm = Uncleaned | Cleaned(delete: Option<bool>)

  /** Python truthiness of `cleaned_data.get('DELETE')`. */
  predicate Truthy(flag: Option<bool>)
  {
    flag == Some(true)
  }

  /** `all(...)` over the DELETE flags of the forms that have cleaned data. */
  function AllFlaggedForDeletion(forms: seq<InlineForm>): (all: bool)
    ensures all <==> forall i :: 0 <= i < |forms| && forms[i].Cleaned? ==> Truthy(forms[i].delete)
  {
    if forms == [] then true
    else (forms[0].Uncleaned? || Truthy(forms[0].delete)) && AllFlaggedForDeletion(forms[1..])
  }

  datatype FormsetVerdict = FormsetOk | AtLeastOneRequired

  /**
   The formset is refused when every cleaned form is flagged for deletion,
   which includes the case of no cleaned form at all.
   */
  function CleanFormset(forms: seq<InlineForm>): (v: FormsetVerdict)
    ensures v == AtLeastOneRequired <==> forall f :: f in forms && f.Cleaned? ==> Truthy(f.delete)
    ensures v == FormsetOk <==> exists f :: f in forms && f.Cleaned? && !Truthy(f.delete)
  {
    if AllFlaggedForDeletion(forms) then AtLeastOneRequired else FormsetOk
  }

  /** With no cleaned form the check still refuses, since `all([])` is true. */
  lemma NoCleanedFormIsRefused(forms: seq<InlineForm>)
    requires forall i :: 0 <= i < |forms| ==> forms[i].Uncleaned?
    ensures CleanFormset(forms) == AtLeastOneRequired
  {
  }

  /** The verdict depends only on which forms there are, not on their order. */
  lemma {:induction false} CleanFormsetOrderIndependent(forms: seq<InlineForm>, reordered: seq<InlineForm>)
    requires multiset(forms) == multiset(reordered)
    ensures CleanFormset(forms) == CleanFormset(reordered)
  {
    forall f | f in forms ensures f in reordered {
      assert f in multiset(forms);
    }
    forall f | f in reordered ensures f in forms {
      assert f in multiset(reordered);
    }
  }
}
